=== FILE: README.md ===
# Maze Navigator: a Dafny model of the game engine

This project models the engine of `MazeGame`, a two-player console maze
game in C++. The model covers these parts of the game:

- **Level generation.** A square grid of blanks is created. Both players are
  seated on random cells. The goal `G` is drawn until it lands on a blank cell.
  Then come 15 obstacles `X`, about a quarter as many wall attempts `#` as
  there are cells, and 5 teleports `T`. Last, monsters `M` are spawned on
  blank cells by a coin flip.
- **The move rule.** A player steps one cell up, left, down or right, unless
  the target is outside the grid, a wall, an obstacle, or shows a player's
  symbol. The model also keeps the teleport branch as it is written.
- **Monster encounters and attacks.** An attack deals 20 damage to the first
  monster record on the player's cell. It removes the monster, and blanks the
  cell, once its health reaches 0 or less.
- **Health regeneration.** A player regains 40 health, capped at 100.
- **The game loop.** A turn is one command of one player. A round gives every
  player one command. A level runs rounds until a player is on the goal. The
  game plays levels 1 to 3.

Every operation is a pure function on an immutable `Game` value. Each states
what it does in its contract, and lemmas relate operations to each other:

- a step and the step back restore the grid;
- three hits kill a fresh monster;
- regeneration never lowers health;
- generation writes only blank cells, except that seating a player may
  cover the other player, and every mark survives to the end;
- a whole game never changes a player's symbol or sword flag, and never
  lowers a player's health.

## Modules

| file | module | contents |
|---|---|---|
| wrappers.dfy | `Wrappers` | `Option` |
| grid.dfy | `GridModel` | the character grid, cell symbols, writing a cell |
| draws.dfy | `Draws` | the `rand()` stream and the "draw until blank" loop |
| entities.dfy | `Entities` | game constants, `Player`, `Monster`, `Game`, the constructor |
| movement.dfy | `Movement` | `movePlayer` |
| combat.dfy | `Combat` | `checkEncounterMonster`, `attackMonster`, `regenerateHealth` |
| generator.dfy | `Generator` | `generateMaze`, `addObstacles`, walls, `addTeleports`, `addMonsters` |
| turns.dfy | `Turns` | `isLevelComplete`, the command switch, rounds, levels, `play` |

The game has no randomness of its own in this model. It is given inputs instead:

- **The random stream.** Every `rand()` call except the monster coin flip
  (below) takes the next number from one shared stream `draws: seq<nat>`. A cell is drawn as
  `(a % size, b % size)` from two consecutive numbers, row first, in the order
  the C++ code calls `rand()`.
- **Running out of draws.** A resampling loop returns `None` when the stream
  runs out first. This also covers a loop that never ends, for example when no
  blank cell is left.
- **The monster coin flip.** The test `rand()/RAND_MAX < 0.2` is modelled as a
  caller-supplied predicate `coin: Pos -> bool`.
- **Commands.** The keyboard becomes a sequence of command characters, one
  per player per round.

## Behaviour of the code that the model keeps

- **The teleport branch never fires.** `movePlayer` writes the player's
  symbol into the target cell, then tests that same cell for `'T'`. So the
  branch runs only for a player whose symbol is `'T'`, and the game's players
  are `'1'` and `'2'`. Stepping onto a teleport just erases it.
  `Movement.NeverTeleports` proves this.
- **Nobody ever gets a sword, and nothing hurts a player.** The constructor
  gives both players `hasSword == false`, and no code changes it. So `'k'`
  always answers "you need a sword". Monsters still get hit, by the automatic
  attack after a move onto their cell. Separately, no code in the game lowers
  a player's health: monsters never strike back, and the only change to a
  player's health is regeneration. `Turns.NoSwordNoDamage` proves both.
- **The monster list is never cleared.** Each level's `addMonsters` appends
  to the records of earlier levels. Those old records keep their old
  positions and stay hidden under whatever the new grid shows. A level starts
  with the previous monsters as a prefix of its list.
- **The size of the maze.** It is `10 + level - 1`, so 10, 11 and 12.
  `MAZE_MAX_SIZE` (15) is declared but never used.
- **Only players can overwrite each other during generation.** Only the
  seating loop writes into a non-blank cell. So the two players can share a
  start cell. The later player's symbol then hides the earlier one's. Goal,
  obstacles, walls, teleports and monsters all write only blank cells.
- **The grid and the monster list can disagree.** A player who walks onto a
  monster's cell replaces the `'M'` with their own symbol, while the monster
  record stays where it was. If the automatic attack kills the monster, the
  cell the player stands on becomes blank.
- **Reaching the goal does not end the round.** The `break` on reaching the
  goal leaves only the `switch`. The other player still takes their turn, and
  the level-complete test runs after the whole round.

## Model

| member | source | states |
|---|---|---|
| Entities.InitialGame | Maze_Navigator.cpp:58-61 | the constructor: level 1, players '1' and '2' with 100 health and no sword, no monsters |
| GridModel.BlankGrid | Maze_Navigator.cpp:65 | a new maze is a size-by-size square of blank cells |
| GridModel.Put | Maze_Navigator.cpp:88-89 | writing one cell (`maze[x][y] = c`): the cell then reads back as written, the grid keeps its shape, and no other cell changes |
| Draws.DrawCell | Maze_Navigator.cpp:86-87 | a cell drawn as `{rand() % size, rand() % size}` lies inside the size-by-size grid, whatever the drawn numbers |
| Draws.DrawBlank | Maze_Navigator.cpp:74-76 | the goal loop: the cell drawn is the first pair in the stream whose cell is blank; every pair tried before it was non-blank; exactly the consumed draws are removed; `None` iff no pair in the stream hits a blank cell |
| Generator.PlacePlayers | Maze_Navigator.cpp:69-72 | player k is put on the cell of the k-th draw pair, in bounds; each cell shows the symbol of the last player seated there, or its old content; it fails iff fewer than two draws per player are left |
| Generator.PlacePlayersSeated | Maze_Navigator.cpp:69-72 | a successful seating consumes exactly the first two draws per player, puts player k on the k-th pair's cell with nothing else about it changed, and each cell shows the last player seated there or its old content |
| Generator.ShownBySeated | Maze_Navigator.cpp:69-72 | a cell no player is seated on keeps its content; a cell some player is seated on shows one of the seated players' symbols |
| Generator.LastSeatedShown | Maze_Navigator.cpp:69-72 | the last player seated always shows on their own cell, hiding an earlier player on the same cell |
| Generator.PlaceMarks | Maze_Navigator.cpp:114-124 | addObstacles and addTeleports: exactly `count` distinct cells that were blank now show the mark, and no other cell changes |
| Generator.ScatterWalls | Maze_Navigator.cpp:84-91 | the wall loop makes exactly `attempts` draws; at most that many walls appear, on distinct cells, each of them one of the drawn cells and blank before; every drawn cell ends non-blank; it fails iff fewer than 2*attempts draws are left |
| Generator.SeedMonsters | Maze_Navigator.cpp:128-136 | the scan from (i, j) on in row-major order: a cell becomes 'M' iff it is blank, not yet scanned, and the coin says so; every other cell keeps its content |
| Generator.SeededRecords | Maze_Navigator.cpp:130-133 | every record the scan appends is an 'M' with 50 health on a not-yet-scanned cell that was blank and whose coin came up |
| Generator.SeededCover | Maze_Navigator.cpp:128-136 | every not-yet-scanned blank cell whose coin comes up gets a record |
| Generator.SeededInOrder | Maze_Navigator.cpp:128-136 | the records come in strictly increasing row-major order of their cells, so no cell gets two |
| Generator.AddMonsters | Maze_Navigator.cpp:127-137 | only blank cells change; exactly the spawning cells become 'M'; the old list is kept as a prefix; each new record is an 'M' with 50 health on a new 'M' cell; each spawn has a record; the new records come in strictly increasing row-major order of their cells, so their positions are distinct |
| Generator.PlaceMarksFreshPairs | Maze_Navigator.cpp:114-124 | when the first `count` pairs land on distinct blank cells, placement succeeds, marks exactly those cells in draw order, and consumes exactly 2*count draws |
| Generator.PlacedCons | Maze_Navigator.cpp:116-122 | marking one blank cell and then placing a list of cells is a placement of the cell followed by the list: the cells stay distinct and only blanks change |
| Generator.PlacedWritesOnlyBlanks | Maze_Navigator.cpp:114-124 | a placement of marks changes only cells that were blank |
| Generator.PlacedThenKept | Maze_Navigator.cpp:80-97 | a placement followed by blank-only writes is blank-only overall and keeps the placed marks |
| Generator.ObstructChain | Maze_Navigator.cpp:80-94 | after obstacles, walls and teleports each placed mark still shows its symbol, and only blank cells were written |
| Generator.Obstruct | Maze_Navigator.cpp:80-94 | the obstacle, wall and teleport phases in order: 15 distinct obstacle cells, at most size*size/4 distinct wall cells and 5 distinct teleport cells, each showing its symbol; only blank cells written |
| Generator.FurnishChain | Maze_Navigator.cpp:80-97 | obstacles, walls and teleports still show their symbols after monsters are added |
| Generator.Furnish | Maze_Navigator.cpp:80-97 | obstacles, walls, teleports and then monsters change only blank cells; the 15 obstacle, at most size*size/4 wall and 5 teleport cells are each distinct and still show their symbols; the old monster list is a prefix and each new record is an 'M' with 50 health on a cell showing 'M' |
| Generator.SeatAndGoal | Maze_Navigator.cpp:65-77 | it fails iff fewer than two draws per player are left or no later pair lands on a cell blank after seating; players are seated in bounds with only their positions changed, player k on the cell of the k-th pair, and each cell of the fresh blank grid shows the last player seated there or stays blank; the goal cell is the first pair after those draws that lands on a cell still blank after seating, every pair before it landed on a non-blank cell, and exactly the draws up to it are consumed ('G' itself is written by GenerateMaze) |
| Generator.GenerateMaze | Maze_Navigator.cpp:64-98 | the new maze is size by size; players change only in position and are in bounds; the goal cell shows 'G' |
| Generator.GeneratedMarks | Maze_Navigator.cpp:80-94 | a generated level has 15 distinct 'X' cells, 5 distinct 'T' cells and at most size*size/4 distinct '#' cells, each still showing its symbol at the end |
| Generator.GeneratedMonsters | Maze_Navigator.cpp:96-97 | generation appends to the monster list: old records are a prefix; each new one is an 'M' with 50 health on a cell showing 'M' |
| Generator.SeatedShowRoster | Maze_Navigator.cpp:69-72 | with players '1' and '2', every seated player's cell shows '1' or '2' |
| Generator.PlayersSurvive | Maze_Navigator.cpp:74-97 | a player's cell is never the goal, and keeps its symbol through the goal and all later placement steps |
| Generator.GeneratedLayout | Maze_Navigator.cpp:64-98 | in a generated level each player's cell shows '1' or '2', is not the goal, and holds no obstacle, wall or teleport |
| Movement.Target | Maze_Navigator.cpp:224-242 | 'w' and 's' give the cell one row up (row - 1) or down (row + 1) in the same column; 'a' and 'd' give the cell one column left (column - 1) or right (column + 1) in the same row; any other key gives none |
| Movement.MovePlayer | Maze_Navigator.cpp:223-271 | blocked iff the target is off the grid, a wall, an obstacle or shows a player's symbol; a move changes only the mover's position and the maze; for a mover whose symbol is not 'T' it is one step, the old cell goes blank, the new cell shows the symbol, nothing else changes, and no draws are used |
| Movement.NeverTeleports | Maze_Navigator.cpp:249-265 | the teleport test reads the cell just overwritten with the mover's symbol, so it fires only for a mover whose symbol is 'T' |
| Movement.OppositeUndoes | Maze_Navigator.cpp:227-242 | the opposite key ('w' and 's', 'a' and 'd') leads back to the cell the step started from |
| Movement.MoveThenBack | Maze_Navigator.cpp:245-251 | when the mover's cell shows its symbol and the target cell is blank, a move followed by the opposite move restores the whole game exactly and uses no draws |
| Movement.StepBack | Maze_Navigator.cpp:249-251 | writing a blank and the symbol back onto the two cells a step touched restores the grid |
| Combat.CheckEncounterMonster | Maze_Navigator.cpp:274-281 | true iff some monster record is at the position |
| Combat.FirstMonsterAt | Maze_Navigator.cpp:285-286 | the index attackMonster hits is the first record at the position; none iff there is no encounter |
| Combat.FirstMonsterAtPositions | Maze_Navigator.cpp:285-286 | the first-index search depends on the monsters' positions only, not their health |
| Combat.AttackMonster | Maze_Navigator.cpp:284-297 | no encounter: nothing changes; else the first monster there loses 20 health, and at 0 or below it is removed, later records shift down and its cell is blanked; players, goal and other cells are unchanged |
| Combat.WoundedStaysFirst | Maze_Navigator.cpp:287-294 | a monster that survives an attack stays the first one on its cell |
| Combat.FreshMonsterThreeHits | Maze_Navigator.cpp:284-297 | the first monster on the player's cell, at 50 health, drops to 30, then 10, and the third hit removes it and blanks the cell; a fourth attack changes nothing unless a later record shares the cell |
| Combat.KillingBlow | Maze_Navigator.cpp:287-291 | a hit that takes the first monster on the cell to 0 or below deletes exactly that record and blanks the cell |
| Combat.RemovedLeavesNone | Maze_Navigator.cpp:289-291 | deleting the only record on a cell leaves no encounter on that cell |
| Combat.RegenerateHealth | Maze_Navigator.cpp:300-308 | below 100 health becomes health+40 capped at 100; at 100 or more nothing changes; symbol, position and sword are unchanged |
| Combat.RegenerationBounded | Maze_Navigator.cpp:300-308 | regeneration never lowers health, never takes health of 100 or less above 100, and strictly raises health below 100 |
| Combat.RegenerationReachesFull | Maze_Navigator.cpp:300-308 | from any health of 0 to 100, three regenerations reach 100 |
| Turns.IsLevelComplete | Maze_Navigator.cpp:324-331 | true iff some player stands on the goal |
| Turns.MoveTurn | Maze_Navigator.cpp:172-193 | a move turn keeps the game well formed and leaves goal, level and player count alone |
| Turns.Step | Maze_Navigator.cpp:171-212 | every command keeps the game well formed and leaves goal, level and player count alone |
| Turns.MoveTurnFrame | Maze_Navigator.cpp:176-189 | a move turn touches only the acting player, keeps its symbol and sword, and never lowers its health or takes it past 100 |
| Turns.StepFrame | Maze_Navigator.cpp:171-212 | any command touches only the acting player in the same way |
| Turns.StepEffects | Maze_Navigator.cpp:176-203 | a move that reports no goal leaves the actor on the target cell with its health exactly as regenerateHealth makes it, whatever the automatic attack did; 'r' regenerates the actor's health and changes nothing else |
| Turns.StepCalls | Maze_Navigator.cpp:176-197 | every legal move that does not target the goal succeeds and reports a walk, and its turn is exactly movePlayer, then attackMonster when a monster record is on the new cell, then regenerateHealth; a plain walk (no monster on the target) is movePlayer followed by regenerateHealth; a goal report is exactly movePlayer's result; 'k' with a sword on a monster's cell is exactly attackMonster |
| Turns.StepOutcomes | Maze_Navigator.cpp:171-212 | 'p' always reports the status and changes nothing; 'k' without both a sword and a monster on the cell is refused and changes nothing; a blocked move and unknown keys change nothing; a move is blocked iff its guard fails; the goal report comes iff a legal step targets the goal, and then the actor stands on the goal and the level is complete |
| Turns.KillNeedsSword | Maze_Navigator.cpp:194-200 | without a sword 'k' only complains |
| Turns.WalkIntoMonster | Maze_Navigator.cpp:176-187 | stepping onto a monster's cell attacks the first monster there; a survivor's record loses 20 health, no other record changes, and the cell shows the walker's symbol; a kill deletes exactly that record, keeps the others in order, and blanks the walker's cell; either way the vacated cell is blank and no other cell changes |
| Turns.RoundFrom | Maze_Navigator.cpp:166-213 | the players act in order (the turn-by-turn composition is `Turns.RoundInOrder`); a player who has already acted is not changed by later players' turns; symbols and swords are kept, and health never drops |
| Turns.RoundInOrder | Maze_Navigator.cpp:166-213 | a round of the two-player game is player 1's turn followed by player 2's turn on the resulting game |
| Turns.FirstFinisherCompletesRound | Maze_Navigator.cpp:176-181 | when player 1 reaches the goal, player 2 still acts, and the level is complete at the end of the round |
| Turns.RunLevel | Maze_Navigator.cpp:165-216 | a finished level is complete, has its counter advanced by one, and kept the roster; running out of rounds means the level was not complete |
| Turns.AfterRounds | Maze_Navigator.cpp:165-213 | playing any number of rounds keeps the game well formed and leaves goal and level alone |
| Turns.RunLevelFails | Maze_Navigator.cpp:165-216 | a level runs out of rounds iff no prefix of the rounds, the empty one included, leaves some player on the goal |
| Turns.RunLevelStopsFirst | Maze_Navigator.cpp:165-216 | when the shortest prefix of rounds that puts a player on the goal has n rounds, the level ends with exactly the game after those n rounds, counter advanced by one; no later round is played |
| Turns.MazeSize | Maze_Navigator.cpp:159 | levels 1 to 3 have grid sizes between 10 and 12 |
| Turns.StartLevel | Maze_Navigator.cpp:158-160 | a new level is well formed, of the level's size, and changes the players' positions only |
| Turns.StartLevelFresh | Maze_Navigator.cpp:159-160 | a level never starts complete, and the earlier monster records are a prefix of the new list |
| Turns.RosterKeptTransitive | Maze_Navigator.cpp:158-217 | keeping the roster composes across levels |
| Turns.PlayLevel | Maze_Navigator.cpp:158-217 | one level iteration advances the counter by one and keeps the roster valid |
| Turns.PlayLevelKeepsRoster | Maze_Navigator.cpp:158-217 | one level keeps every player's symbol and sword, and never lowers their health |
| Turns.Play | Maze_Navigator.cpp:158-219 | a finished game has passed level 3, and ends at level 4 when it started at level 1 to 3 |
| Turns.PlayKeepsRoster | Maze_Navigator.cpp:158-219 | a whole game that runs to its end keeps every player's symbol and sword, and never lowers their health |
| Turns.NoSwordNoDamage | Maze_Navigator.cpp:58-61 | in every game that starts from the constructor's state and runs to its end, each player ends with no sword and 100 health |

## Left out

- printMaze and displayPlayerStatus: console output only. They change no state.
- The messages of play(), movePlayer and attackMonster: console output only. A turn's `Outcome` stands for the message the player sees.
- Reading commands with `cin`, and `cin.clear` / `cin.ignore` after a bad key: the commands are a given sequence.
- `srand(time(nullptr))`: seeding is left out. `rand()` is an arbitrary stream of non-negative numbers, and `RAND_MAX` does not bound them.
- The floating-point monster test `rand()/RAND_MAX < 0.2`: replaced by the `coin` predicate, so the 20% probability is not modelled.
- main: it only constructs a game and calls play.
- A resampling loop that never ends, and a game whose players never reach the goal: modelled as running out of draws or rounds (`None`), so they are not told apart from a short input.
- Integer widths: health, positions and sizes are unbounded integers. The values the game reaches stay far below 32-bit limits.
- Movement.MovePlayer: for a mover whose symbol is 'T' the contract says only that the mover ends on a cell showing its symbol, not which drawn cell. No player of the game has that symbol.
- Generator.PlaceMarks: its own contract does not state which draw pair produced which marked cell. `Generator.PlaceMarksFreshPairs` states it, and that placement succeeds, when the first `count` pairs land on distinct blank cells. When some pair is rejected, which later pair takes its place, and when placement then fails, are not stated.
- Turns.MoveTurn: its own contract states well-formedness and the unchanged goal, level and player count. Where the actor lands and how its health changes are stated by `Turns.StepEffects`; that every legal step off the goal is movePlayer, then attackMonster when a monster record is there, then regenerateHealth, and a goal step is movePlayer alone, by `Turns.StepCalls`; a walk into a monster by `Turns.WalkIntoMonster`; and that nobody else changes by `Turns.MoveTurnFrame`.
- Turns.Step: its own contract states well-formedness and the unchanged goal, level and player count. What each command does is stated by `Turns.StepOutcomes` (blocked moves, 'k' without a sword or without a monster, 'p', unknown keys, the goal report), `Turns.StepCalls` (every legal step off the goal, with or without a monster; the goal step; 'k' with a sword on a monster's cell), `Turns.StepEffects` (the mover's cell and health, 'r'), `Turns.WalkIntoMonster` (a walk onto a monster), `Turns.KillNeedsSword` (no sword) and `Turns.StepFrame` (nobody else changes).
- Generator.GenerateMaze: its own contract covers the shape, the players and the goal. The marks, the monsters and the layout of players against goal and marks are stated in `GeneratedMarks`, `GeneratedMonsters` and `GeneratedLayout`.

=== FILE: combat.dfy ===
/** Encounters, attacks and healing (checkEncounterMonster, attackMonster,
    regenerateHealth). */
module Combat {
  import opened Wrappers
  import opened GridModel
  import opened Entities

  /** checkEncounterMonster: some monster of the list stands on `pos`. */
  function CheckEncounterMonster(monsters: seq<Monster>, pos: Pos): (found: bool)
    ensures found <==> exists k | 0 <= k < |monsters| :: monsters[k].position == pos
  {
    if |monsters| == 0 then false
    else if monsters[0].position == pos then true
    else
      var rest := CheckEncounterMonster(monsters[1..], pos);
      assert forall k | 1 <= k < |monsters| :: monsters[k] == monsters[1..][k - 1];
      rest
  }

  /** The index attackMonster's scan stops at: the first monster on `pos`. */
  function FirstMonsterAt(monsters: seq<Monster>, pos: Pos): (r: Option<nat>)
    ensures r.Some? ==>
      && r.value < |monsters| && monsters[r.value].position == pos
      && forall j | 0 <= j < r.value :: monsters[j].position != pos
    ensures r.None? <==> !CheckEncounterMonster(monsters, pos)
  {
    if |monsters| == 0 then None
    else if monsters[0].position == pos then Some(0)
    else
      match FirstMonsterAt(monsters[1..], pos)
      case None => None
      case Some(k) => Some(k + 1)
  }

  /** attackMonster: the first monster on the attacker's cell loses 20 health;
      when that leaves it at 0 or below it is deleted from the list and its
      cell is blanked, whoever stands there. With no monster on the cell
      nothing changes. */
  function AttackMonster(s: Game, i: nat): (r: Game)
    requires i < |s.players| && InBounds(s.maze, s.players[i].position)
    ensures r.players == s.players && r.goal == s.goal && r.level == s.level
    ensures SameShape(s.maze, r.maze)
    ensures !CheckEncounterMonster(s.monsters, s.players[i].position) ==> r == s
    ensures FirstMonsterAt(s.monsters, s.players[i].position).Some? ==>
      var pos := s.players[i].position;
      var k := FirstMonsterAt(s.monsters, pos).value;
      var m := s.monsters[k];
      && |r.monsters| == |s.monsters| - (if m.health - ATTACK_DAMAGE <= 0 then 1 else 0)
      && r.monsters[..k] == s.monsters[..k]
      && (m.health - ATTACK_DAMAGE <= 0 ==>
            && r.monsters[k..] == s.monsters[k + 1..]
            && SameShape(s.maze, r.maze)
            && At(r.maze, pos) == BLANK
            && forall q | InBounds(s.maze, q) && q != pos :: At(r.maze, q) == At(s.maze, q))
      && (m.health - ATTACK_DAMAGE > 0 ==>
            && |r.monsters| == |s.monsters|
            && r.monsters[k] == Monster(m.position, m.symbol, m.health - ATTACK_DAMAGE)
            && r.monsters[k + 1..] == s.monsters[k + 1..]
            && r.maze == s.maze)
  {
    match FirstMonsterAt(s.monsters, s.players[i].position)
    case None => s
    case Some(k) =>
      var m := s.monsters[k].(health := s.monsters[k].health - ATTACK_DAMAGE);
      if m.health <= 0 then
        s.(maze := Put(s.maze, m.position, BLANK),
           monsters := s.monsters[..k] + s.monsters[k + 1..])
      else
        s.(monsters := s.monsters[k := m])
  }

  /** The scan only looks at positions: lists with the same positions stop
      at the same index. */
  lemma {:induction false} FirstMonsterAtPositions(a: seq<Monster>, b: seq<Monster>, pos: Pos)
    requires |a| == |b|
    requires forall j | 0 <= j < |a| :: a[j].position == b[j].position
    ensures FirstMonsterAt(a, pos) == FirstMonsterAt(b, pos)
  {
    if |a| > 0 && a[0].position != pos {
      FirstMonsterAtPositions(a[1..], b[1..], pos);
    }
  }

  /** An attack that the monster survives keeps it first in line on that cell. */
  lemma WoundedStaysFirst(s: Game, i: nat, k: nat)
    requires i < |s.players| && InBounds(s.maze, s.players[i].position)
    requires FirstMonsterAt(s.monsters, s.players[i].position) == Some(k)
    requires s.monsters[k].health > ATTACK_DAMAGE
    ensures AttackMonster(s, i).monsters == s.monsters[k := s.monsters[k].(health := s.monsters[k].health - ATTACK_DAMAGE)]
    ensures AttackMonster(s, i).maze == s.maze
    ensures FirstMonsterAt(AttackMonster(s, i).monsters, s.players[i].position) == Some(k)
  {
    var r := AttackMonster(s, i);
    FirstMonsterAtPositions(s.monsters, r.monsters, s.players[i].position);
  }

  /** A monster seeded with 50 health survives two attacks (30, then 10) and
      is removed by the third; if it was the only monster on the cell, a
      fourth attack finds nothing and changes nothing. */
  lemma FreshMonsterThreeHits(s: Game, i: nat, k: nat)
    requires i < |s.players| && InBounds(s.maze, s.players[i].position)
    requires FirstMonsterAt(s.monsters, s.players[i].position) == Some(k)
    requires s.monsters[k].health == MONSTER_HEALTH
    ensures var a1 := AttackMonster(s, i);
      var a2 := AttackMonster(a1, i);
      var a3 := AttackMonster(a2, i);
      && a1.monsters[k].health == 30
      && a2.monsters[k].health == 10
      && a3.monsters == s.monsters[..k] + s.monsters[k + 1..]
      && At(a3.maze, s.players[i].position) == BLANK
      && ((forall j | k < j < |s.monsters| :: s.monsters[j].position != s.players[i].position)
          ==> AttackMonster(a3, i) == a3)
  {
    var pos := s.players[i].position;
    WoundedStaysFirst(s, i, k);
    var a1 := AttackMonster(s, i);
    WoundedStaysFirst(a1, i, k);
    var a2 := AttackMonster(a1, i);
    assert a2.monsters == s.monsters[k := s.monsters[k].(health := 10)];
    KillingBlow(a2, i, k);
    assert a2.monsters[..k] == s.monsters[..k] && a2.monsters[k + 1..] == s.monsters[k + 1..];
    if forall j | k < j < |s.monsters| :: s.monsters[j].position != pos {
      RemovedLeavesNone(s.monsters, k, pos);
    }
  }

  /** The hit that takes the first monster on the cell to 0 or below
      deletes its record and blanks the cell. */
  lemma KillingBlow(s: Game, i: nat, k: nat)
    requires i < |s.players| && InBounds(s.maze, s.players[i].position)
    requires FirstMonsterAt(s.monsters, s.players[i].position) == Some(k)
    requires s.monsters[k].health <= ATTACK_DAMAGE
    ensures AttackMonster(s, i).monsters == s.monsters[..k] + s.monsters[k + 1..]
    ensures At(AttackMonster(s, i).maze, s.players[i].position) == BLANK
  {
    var r := AttackMonster(s, i);
    assert r.monsters[..k] == s.monsters[..k] && r.monsters[k..] == s.monsters[k + 1..];
    assert r.monsters == r.monsters[..k] + r.monsters[k..];
  }

  /** Deleting the only record on a cell leaves no encounter there. */
  lemma RemovedLeavesNone(ms: seq<Monster>, k: nat, pos: Pos)
    requires k < |ms|
    requires forall j | 0 <= j < |ms| && j != k :: ms[j].position != pos
    ensures !CheckEncounterMonster(ms[..k] + ms[k + 1..], pos)
  {
    var rest := ms[..k] + ms[k + 1..];
    forall j | 0 <= j < |rest|
      ensures rest[j].position != pos
    {
      if j >= k {
        assert rest[j] == ms[j + 1];
      } else {
        assert rest[j] == ms[j];
      }
    }
  }

  /** regenerateHealth: below 100, add 40 and clamp at 100, i.e. the new
      health is min(health + 40, 100); at 100 or above nothing changes. */
  function RegenerateHealth(p: Player): (q: Player)
    ensures q == p.(health := q.health)
    ensures p.health < MAX_HEALTH ==>
      && (q.health == p.health + REGENERATION || q.health == MAX_HEALTH)
      && q.health <= p.health + REGENERATION && q.health <= MAX_HEALTH
    ensures p.health >= MAX_HEALTH ==> q == p
  {
    if p.health < MAX_HEALTH then
      var h := p.health + REGENERATION;
      p.(health := if h > MAX_HEALTH then MAX_HEALTH else h)
    else p
  }

  /** Regeneration never pushes health above 100, never lowers it, and strictly
      raises any health below 100. */
  lemma RegenerationBounded(p: Player)
    ensures p.health <= RegenerateHealth(p).health
    ensures p.health <= MAX_HEALTH ==> RegenerateHealth(p).health <= MAX_HEALTH
    ensures p.health < MAX_HEALTH ==> RegenerateHealth(p).health > p.health
  {
  }

  /** Three regenerations bring any non-negative health to exactly 100, and
      100 is a fixed point. */
  lemma RegenerationReachesFull(p: Player)
    requires 0 <= p.health <= MAX_HEALTH
    ensures RegenerateHealth(RegenerateHealth(RegenerateHealth(p))).health == MAX_HEALTH
    ensures p.health == MAX_HEALTH ==> RegenerateHealth(p) == p
  {
  }
}

=== FILE: draws.dfy ===
/** The random source. Every `rand()` call of the game is one element of a
    caller-supplied stream of non-negative numbers; a cell is drawn as two
    consecutive elements, row first, each reduced modulo the grid size. A
    stream that runs out stands for a resample loop that would need more
    draws than were supplied (or would never stop). */
module Draws {
  import opened Wrappers
  import opened GridModel

  /** `{rand() % n, rand() % n}`: always a cell inside the n x n grid. */
  function DrawCell(n: nat, a: nat, b: nat): (p: Pos)
    requires n > 0
    ensures 0 <= p.row < n && 0 <= p.col < n
  {
    Pos(a % n, b % n)
  }

  /** The cell drawn by the `k`-th pair of the stream (draws 2k and 2k+1). */
  function PairAt(n: nat, draws: seq<nat>, k: nat): Pos
    requires n > 0 && 2 * k + 1 < |draws|
  {
    DrawCell(n, draws[2 * k], draws[2 * k + 1])
  }

  /** `rest` is what is left of `draws` after some prefix was consumed. */
  predicate SuffixOf(rest: seq<nat>, draws: seq<nat>) {
    |rest| <= |draws| && rest == draws[|draws| - |rest|..]
  }

  lemma SuffixOfTransitive(a: seq<nat>, b: seq<nat>, c: seq<nat>)
    requires SuffixOf(c, b) && SuffixOf(b, a)
    ensures SuffixOf(c, a)
  {
    assert a[|a| - |b|..][|b| - |c|..] == a[|a| - |c|..];
  }

  /** A successful resample: the cell found, how many pairs it took, and the
      unconsumed rest of the stream. */
  datatype Drawn = Drawn(cell: Pos, tries: nat, rest: seq<nat>)

  /** `d` is what resampling until blank finds in `draws` on `g`: the pair
      numbered `d.tries - 1` lands on a blank cell, every pair before it lands
      on a non-blank one, and the draws after it are left over. */
  ghost predicate FirstBlank(g: Grid, draws: seq<nat>, d: Drawn)
    requires IsSquare(g) && |g| > 0
  {
    && 1 <= d.tries && 2 * d.tries <= |draws|
    && d.rest == draws[2 * d.tries..]
    && d.cell == PairAt(|g|, draws, d.tries - 1)
    && InBounds(g, d.cell) && At(g, d.cell) == BLANK
    && forall k | 0 <= k < d.tries - 1 :: At(g, PairAt(|g|, draws, k)) != BLANK
  }

  /** No complete pair of the stream lands on a blank cell of `g`. */
  ghost predicate NoBlankPair(g: Grid, draws: seq<nat>)
    requires IsSquare(g) && |g| > 0
  {
    forall k | 0 <= k && 2 * k + 1 < |draws| :: At(g, PairAt(|g|, draws, k)) != BLANK
  }

  /** A stream in which resampling finds a blank cell has a pair landing on one. */
  lemma FirstBlankExcludesNone(g: Grid, draws: seq<nat>, d: Drawn)
    requires IsSquare(g) && |g| > 0 && FirstBlank(g, draws, d)
    ensures !NoBlankPair(g, draws)
  {
    assert At(g, PairAt(|g|, draws, d.tries - 1)) == BLANK;
  }

  /** Resample until blank: draw cells until one is blank. The answer is the
      first blank cell drawn; every pair drawn before it hit a non-blank cell.
      `None` exactly when no complete pair of the stream lands on a blank cell. */
  function DrawBlank(g: Grid, draws: seq<nat>): (r: Option<Drawn>)
    requires IsSquare(g) && |g| > 0
    decreases |draws|
    ensures r.Some? ==> FirstBlank(g, draws, r.value)
    ensures r.None? ==> NoBlankPair(g, draws)
  {
    if |draws| < 2 then None
    else
      var p := DrawCell(|g|, draws[0], draws[1]);
      if At(g, p) == BLANK then Some(Drawn(p, 1, draws[2..]))
      else
        var tail := draws[2..];
        assert PairAt(|g|, draws, 0) == p;
        assert forall k | 1 <= k && 2 * k + 1 < |draws| :: PairAt(|g|, draws, k) == PairAt(|g|, tail, k - 1);
        match DrawBlank(g, tail)
        case None => None
        case Some(d) => Some(d.(tries := d.tries + 1))
  }
}

=== FILE: entities.dfy ===
/** The entity records of the game and the game state they live in: two
    players that outlive levels, the monster list, the goal cell and the level
    counter. */
module Entities {
  import opened GridModel

  const MAX_PLAYERS: nat := 2
  const MAX_LEVELS: int := 3
  const MAZE_MIN_SIZE: nat := 10
  const NUM_TELEPORTS: nat := 5
  const NUM_OBSTACLES: nat := 15
  const MAX_HEALTH: int := 100
  const MONSTER_HEALTH: int := 50
  const ATTACK_DAMAGE: int := 20
  const REGENERATION: int := 40

  /** generateMaze's wall count: "approximately one-fourth of maze cells". */
  function WallAttempts(size: nat): nat {
    size * size / 4
  }

  datatype Player = Player(position: Pos, symbol: char, health: int, hasSword: bool)

  datatype Monster = Monster(position: Pos, symbol: char, health: int)

  /** Everything the game object holds between two commands. */
  datatype Game = Game(
    maze: Grid,
    players: seq<Player>,
    monsters: seq<Monster>,
    goal: Pos,
    level: int)

  /** The grid symbol of the k-th player: '1', '2', ... */
  function PlayerSymbol(k: nat): char
    requires k < MAX_PLAYERS
  {
    if k == 0 then '1' else '2'
  }

  /** The roster the constructor builds and nothing ever replaces: exactly two
      players, carrying the symbols '1' and '2' in that order. */
  predicate ValidRoster(players: seq<Player>) {
    && |players| == MAX_PLAYERS
    && forall k | 0 <= k < |players| :: players[k].symbol == PlayerSymbol(k)
  }

  /** `b` is `a` with only the positions changed. */
  ghost predicate Repositioned(a: seq<Player>, b: seq<Player>) {
    |a| == |b| && forall k | 0 <= k < |a| :: b[k] == a[k].(position := b[k].position)
  }

  lemma RepositionedKeepsRoster(a: seq<Player>, b: seq<Player>)
    requires ValidRoster(a) && Repositioned(a, b)
    ensures ValidRoster(b)
  {
  }

  /** The state in which a turn can be played: a square, non-empty maze with
      every player standing inside it. */
  predicate WellFormed(s: Game) {
    && IsSquare(s.maze) && |s.maze| > 0
    && ValidRoster(s.players)
    && forall k | 0 <= k < |s.players| :: InBounds(s.maze, s.players[k].position)
  }

  /** The constructor: level 1, both players at (0, 0) with full health and no
      sword, no monsters. The maze and the goal are only set by the first
      generation, so they start empty and at (0, 0) here. */
  function InitialGame(): (s: Game)
    ensures ValidRoster(s.players) && s.level == 1 && s.monsters == []
    ensures forall k | 0 <= k < |s.players| ::
      s.players[k].health == MAX_HEALTH && !s.players[k].hasSword
  {
    Game([], [Player(Pos(0, 0), '1', 100, false), Player(Pos(0, 0), '2', 100, false)],
         [], Pos(0, 0), 1)
  }

  /** Rewriting cells keeps a well-formed state well-formed. */
  lemma ReshapeKeepsWellFormed(s: Game, maze: Grid)
    requires WellFormed(s) && SameShape(s.maze, maze)
    ensures WellFormed(s.(maze := maze))
  {
    assert forall k | 0 <= k < |s.players| :: InBounds(maze, s.players[k].position);
  }
}

=== FILE: generator.dfy ===
/** Building a level (generateMaze and its helpers addObstacles,
    addTeleports, addMonsters). All of it draws from one random stream, in
    the order the game calls rand(): two draws per player, then the goal's
    resample loop, the obstacles, the wall attempts and the teleports. The
    monster coin flip is a caller-supplied answer per cell. */
module Generator {
  import opened Wrappers
  import opened GridModel
  import opened Draws
  import opened Entities

  /** The players after seating, the grid showing them, and the rest of the stream. */
  datatype Seated = Seated(maze: Grid, players: seq<Player>, rest: seq<nat>)

  /** The grid after a placement step, the cells it marked (in the order they
      were marked) and the rest of the stream. */
  datatype Placement = Placement(maze: Grid, cells: seq<Pos>, rest: seq<nat>)

  /** `h` is `g` with exactly the distinct, formerly blank `cells` set to `mark`. */
  ghost predicate Placed(g: Grid, h: Grid, mark: char, cells: seq<Pos>) {
    && SameShape(g, h)
    && Distinct(cells)
    && (forall c | c in cells :: InBounds(g, c) && At(g, c) == BLANK && At(h, c) == mark)
    && (forall q | InBounds(g, q) && q !in cells :: At(h, q) == At(g, q))
  }

  lemma PlacedWritesOnlyBlanks(g: Grid, h: Grid, mark: char, cells: seq<Pos>)
    requires Placed(g, h, mark, cells)
    ensures OnlyBlanksWritten(g, h)
  {
  }

  /** Marking one blank cell and then placing `cells` is placing the cell
      followed by `cells`. */
  lemma PlacedCons(g: Grid, h: Grid, mark: char, c: Pos, cells: seq<Pos>)
    requires InBounds(g, c) && At(g, c) == BLANK && mark != BLANK
    requires Placed(Put(g, c, mark), h, mark, cells)
    ensures Placed(g, h, mark, [c] + cells)
  {
    var g1 := Put(g, c, mark);
    assert c !in cells;
    var all := [c] + cells;
    forall a, b | 0 <= a < b < |all|
      ensures all[a] != all[b]
    {
      assert all[b] == cells[b - 1];
      if a > 0 {
        assert all[a] == cells[a - 1];
      }
    }
    forall q | InBounds(g, q) && q !in all
      ensures At(h, q) == At(g, q)
    {
      assert At(g1, q) == At(g, q);
    }
  }

  /** What a cell shows after `ps` are seated in order on a grid where it
      showed `under`: the symbol of the last of them seated there. */
  function Shown(ps: seq<Player>, q: Pos, under: char): char
    decreases |ps|
  {
    if |ps| == 0 then under
    else Shown(ps[1..], q, if ps[0].position == q then ps[0].symbol else under)
  }

  /** A cell nobody is seated on shows what it showed before; a cell somebody
      is seated on shows the symbol of one of the players seated on it. */
  lemma {:induction false} ShownBySeated(ps: seq<Player>, q: Pos, under: char)
    ensures (forall j | 0 <= j < |ps| :: ps[j].position != q) ==> Shown(ps, q, under) == under
    ensures (exists j | 0 <= j < |ps| :: ps[j].position == q) ==>
      exists j | 0 <= j < |ps| :: ps[j].position == q && Shown(ps, q, under) == ps[j].symbol
  {
    if |ps| > 0 {
      var next := if ps[0].position == q then ps[0].symbol else under;
      ShownBySeated(ps[1..], q, next);
      assert forall j | 1 <= j < |ps| :: ps[j] == ps[1..][j - 1];
      if exists j | 1 <= j < |ps| :: ps[j].position == q {
        var j :| 1 <= j < |ps| && ps[j].position == q;
        assert ps[1..][j - 1].position == q;
        var j' :| 0 <= j' < |ps[1..]| && ps[1..][j'].position == q && Shown(ps[1..], q, next) == ps[1..][j'].symbol;
        assert ps[j' + 1].position == q && Shown(ps, q, under) == ps[j' + 1].symbol;
      } else if ps[0].position == q {
        assert Shown(ps, q, under) == ps[0].symbol;
      }
    }
  }

  /** The last player seated is always the one its cell shows: on a shared
      start cell the earlier player's symbol is gone. */
  lemma {:induction false} LastSeatedShown(ps: seq<Player>, under: char)
    requires |ps| > 0
    ensures Shown(ps, ps[|ps| - 1].position, under) == ps[|ps| - 1].symbol
    decreases |ps|
  {
    if |ps| > 1 {
      var q := ps[|ps| - 1].position;
      LastSeatedShown(ps[1..], if ps[0].position == q then ps[0].symbol else under);
    }
  }

  /** Seating the players (generateMaze's first loop): player k is put on the
      cell drawn by the k-th pair and its symbol written there, overwriting
      whatever an earlier player left, so on a shared cell the last player
      placed is the one shown. Nothing else about a player changes. */
  function PlacePlayers(g: Grid, players: seq<Player>, draws: seq<nat>): (r: Option<Seated>)
    requires IsSquare(g) && |g| > 0
    decreases |players|
    ensures r.Some? <==> 2 * |players| <= |draws|
    ensures r.Some? ==>
      var ps := r.value.players;
      && SameShape(g, r.value.maze)
      && r.value.rest == draws[2 * |players|..]
      && |ps| == |players|
      && (forall k | 0 <= k < |ps| ::
            && ps[k] == players[k].(position := ps[k].position)
            && ps[k].position == PairAt(|g|, draws, k)
            && InBounds(g, ps[k].position))
      && (forall q | InBounds(g, q) :: At(r.value.maze, q) == Shown(ps, q, At(g, q)))
  {
    if |players| == 0 then Some(Seated(g, [], draws))
    else if |draws| < 2 then None
    else
      var p := DrawCell(|g|, draws[0], draws[1]);
      var g1 := Put(g, p, players[0].symbol);
      var tail := draws[2..];
      assert forall k | 1 <= k && 2 * k + 1 < |draws| :: PairAt(|g|, draws, k) == PairAt(|g|, tail, k - 1);
      match PlacePlayers(g1, players[1..], tail)
      case None => None
      case Some(rest) =>
        var ps := [players[0].(position := p)] + rest.players;
        assert ps[1..] == rest.players;
        assert rest.rest == draws[2 * |players|..] by {
          assert tail[2 * (|players| - 1)..] == draws[2 * |players|..];
        }
        forall k | 1 <= k < |ps|
          ensures ps[k] == players[k].(position := ps[k].position)
          ensures ps[k].position == PairAt(|g|, draws, k) && InBounds(g, ps[k].position)
        {
          assert ps[k] == rest.players[k - 1] && players[k] == players[1..][k - 1];
        }
        forall q | InBounds(g, q)
          ensures At(rest.maze, q) == Shown(ps, q, At(g, q))
        {
          assert At(g1, q) == (if p == q then players[0].symbol else At(g, q));
        }
        Some(Seated(rest.maze, ps, rest.rest))
  }

  /** `seated` is what seating `players` on `g` from `draws` gives, as
      PlacePlayers states it: player k (only its position changed) on the
      cell of pair k, the first two draws per player consumed, and every cell
      showing the last player seated on it, or its old content. */
  ghost predicate SeatedFrom(g: Grid, players: seq<Player>, draws: seq<nat>, seated: Seated)
    requires IsSquare(g) && |g| > 0
  {
    && SameShape(g, seated.maze)
    && 2 * |players| <= |draws| && seated.rest == draws[2 * |players|..]
    && |seated.players| == |players|
    && (forall k | 0 <= k < |players| ::
          && seated.players[k] == players[k].(position := seated.players[k].position)
          && 2 * k + 1 < |draws| && seated.players[k].position == PairAt(|g|, draws, k)
          && InBounds(g, seated.players[k].position))
    && (forall q | InBounds(g, q) :: InBounds(seated.maze, q) && At(seated.maze, q) == Shown(seated.players, q, At(g, q)))
  }

  lemma PlacePlayersSeated(g: Grid, players: seq<Player>, draws: seq<nat>)
    requires IsSquare(g) && |g| > 0
    ensures PlacePlayers(g, players, draws).Some? ==> SeatedFrom(g, players, draws, PlacePlayers(g, players, draws).value)
  {
    if PlacePlayers(g, players, draws).Some? {
      var v := PlacePlayers(g, players, draws).value;
      assert SameShape(g, v.maze) && v.rest == draws[2 * |players|..];
      forall k | 0 <= k < |players|
        ensures && v.players[k] == players[k].(position := v.players[k].position)
                && 2 * k + 1 < |draws| && v.players[k].position == PairAt(|g|, draws, k)
                && InBounds(g, v.players[k].position)
      {
      }
      forall q | InBounds(g, q)
        ensures InBounds(v.maze, q) && At(v.maze, q) == Shown(v.players, q, At(g, q))
      {
      }
    }
  }

  /** Resample-until-blank placement (addObstacles, addTeleports): marks
      exactly `count` distinct cells that were blank. */
  function PlaceMarks(g: Grid, mark: char, count: nat, draws: seq<nat>): (r: Option<Placement>)
    requires IsSquare(g) && |g| > 0 && mark != BLANK
    decreases count
    ensures r.Some? ==>
      && Placed(g, r.value.maze, mark, r.value.cells)
      && |r.value.cells| == count
      && SuffixOf(r.value.rest, draws)
  {
    if count == 0 then Some(Placement(g, [], draws))
    else
      match DrawBlank(g, draws)
      case None => None
      case Some(d) =>
        var g1 := Put(g, d.cell, mark);
        match PlaceMarks(g1, mark, count - 1, d.rest)
        case None => None
        case Some(more) =>
          PlacedCons(g, more.maze, mark, d.cell, more.cells);
          SuffixOfTransitive(draws, d.rest, more.rest);
          Some(Placement(more.maze, [d.cell] + more.cells, more.rest))
  }

  /** The first `count` pairs of the stream land on `count` different cells,
      all blank in `g`. */
  ghost predicate FreshPairs(g: Grid, draws: seq<nat>, count: nat)
    requires IsSquare(g) && |g| > 0
  {
    && 2 * count <= |draws|
    && (forall k | 0 <= k < count :: At(g, PairAt(|g|, draws, k)) == BLANK)
    && (forall a, b | 0 <= a < b < count :: PairAt(|g|, draws, a) != PairAt(|g|, draws, b))
  }

  /** With fresh pairs, resampling takes the first pair at once, and the
      remaining pairs are fresh on the grid it marks. */
  lemma FreshPairsShift(g: Grid, mark: char, count: nat, draws: seq<nat>)
    requires IsSquare(g) && |g| > 0 && mark != BLANK && 1 <= count
    requires FreshPairs(g, draws, count)
    ensures DrawBlank(g, draws) == Some(Drawn(PairAt(|g|, draws, 0), 1, draws[2..]))
    ensures FreshPairs(Put(g, PairAt(|g|, draws, 0), mark), draws[2..], count - 1)
    ensures forall k | 0 <= k < count - 1 :: PairAt(|g|, draws[2..], k) == PairAt(|g|, draws, k + 1)
  {
    var p := PairAt(|g|, draws, 0);
    assert At(g, p) == BLANK;
    var g1 := Put(g, p, mark);
    var tail := draws[2..];
    forall k | 0 <= k < count - 1
      ensures PairAt(|g1|, tail, k) == PairAt(|g|, draws, k + 1)
      ensures At(g1, PairAt(|g1|, tail, k)) == BLANK
    {
      assert PairAt(|g|, draws, 0) != PairAt(|g|, draws, k + 1);
      assert At(g, PairAt(|g|, draws, k + 1)) == BLANK;
    }
    forall a, b | 0 <= a < b < count - 1
      ensures PairAt(|g1|, tail, a) != PairAt(|g1|, tail, b)
    {
      assert PairAt(|g|, draws, a + 1) != PairAt(|g|, draws, b + 1);
    }
  }

  /** One step of placement: the first blank cell drawn, then the rest. */
  lemma PlaceMarksUnfold(g: Grid, mark: char, count: nat, draws: seq<nat>, d: Drawn)
    requires IsSquare(g) && |g| > 0 && mark != BLANK && 1 <= count
    requires DrawBlank(g, draws) == Some(d)
    requires PlaceMarks(Put(g, d.cell, mark), mark, count - 1, d.rest).Some?
    ensures var more := PlaceMarks(Put(g, d.cell, mark), mark, count - 1, d.rest).value;
      PlaceMarks(g, mark, count, draws) == Some(Placement(more.maze, [d.cell] + more.cells, more.rest))
  {
  }

  /** `r` succeeded by marking the first `count` pairs of `draws`, in draw
      order, and left exactly the draws after them. */
  ghost predicate PlacesPairs(r: Option<Placement>, n: nat, draws: seq<nat>, count: nat)
    requires n > 0 && 2 * count <= |draws|
  {
    && r.Some?
    && |r.value.cells| == count
    && (forall k | 0 <= k < count :: r.value.cells[k] == PairAt(n, draws, k))
    && r.value.rest == draws[2 * count..]
  }

  lemma PlacesPairsCons(r: Option<Placement>, more: Placement, n: nat, draws: seq<nat>, count: nat)
    requires n > 0 && 1 <= count && 2 * count <= |draws|
    requires PlacesPairs(Some(more), n, draws[2..], count - 1)
    requires r == Some(Placement(more.maze, [PairAt(n, draws, 0)] + more.cells, more.rest))
    ensures PlacesPairs(r, n, draws, count)
  {
    var cells := r.value.cells;
    forall k | 0 <= k < count
      ensures cells[k] == PairAt(n, draws, k)
    {
      if k > 0 {
        assert cells[k] == more.cells[k - 1];
        assert PairAt(n, draws[2..], k - 1) == PairAt(n, draws, k);
      }
    }
    assert draws[2..][2 * (count - 1)..] == draws[2 * count..];
  }

  /** When the first `count` pairs already land on distinct blank cells, no
      draw is rejected: placement succeeds, marks exactly those cells in draw
      order, and consumes exactly `2 * count` draws. */
  lemma {:induction false} PlaceMarksFreshPairs(g: Grid, mark: char, count: nat, draws: seq<nat>)
    requires IsSquare(g) && |g| > 0 && mark != BLANK
    requires FreshPairs(g, draws, count)
    decreases count
    ensures PlacesPairs(PlaceMarks(g, mark, count, draws), |g|, draws, count)
  {
    if count == 0 {
      assert draws[0..] == draws;
    } else {
      var p := PairAt(|g|, draws, 0);
      var tail := draws[2..];
      FreshPairsShift(g, mark, count, draws);
      var g1 := Put(g, p, mark);
      PlaceMarksFreshPairs(g1, mark, count - 1, tail);
      var more := PlaceMarks(g1, mark, count - 1, tail);
      PlaceMarksUnfold(g, mark, count, draws, Drawn(p, 1, tail));
      PlacesPairsCons(PlaceMarks(g, mark, count, draws), more.value, |g|, draws, count);
    }
  }

  /** The wall loop of generateMaze: exactly `attempts` draws of a cell, each
      walled only if still blank. Draws landing on taken cells are skipped, so
      at most `attempts` walls appear, every wall is on a drawn cell, and every
      drawn cell ends up non-blank. */
  function ScatterWalls(g: Grid, attempts: nat, draws: seq<nat>): (r: Option<Placement>)
    requires IsSquare(g) && |g| > 0
    decreases attempts
    ensures r.Some? <==> 2 * attempts <= |draws|
    ensures r.Some? ==>
      && Placed(g, r.value.maze, WALL, r.value.cells)
      && |r.value.cells| <= attempts
      && r.value.rest == draws[2 * attempts..]
      && (forall c | c in r.value.cells :: exists k | 0 <= k < attempts :: c == PairAt(|g|, draws, k))
      && forall k | 0 <= k < attempts :: At(r.value.maze, PairAt(|g|, draws, k)) != BLANK
  {
    if attempts == 0 then Some(Placement(g, [], draws))
    else if |draws| < 2 then None
    else
      var p := DrawCell(|g|, draws[0], draws[1]);
      var tail := draws[2..];
      assert forall k | 1 <= k && 2 * k + 1 < |draws| :: PairAt(|g|, draws, k) == PairAt(|g|, tail, k - 1);
      if At(g, p) == BLANK then
        var g1 := Put(g, p, WALL);
        match ScatterWalls(g1, attempts - 1, tail)
        case None => None
        case Some(more) =>
          PlacedCons(g, more.maze, WALL, p, more.cells);
          assert PairAt(|g|, draws, 0) == p;
          WallsDrawnShift(|g|, draws, attempts, more.cells);
          Some(Placement(more.maze, [p] + more.cells, more.rest))
      else
        var more := ScatterWalls(g, attempts - 1, tail);
        if more.Some? then
          WallsDrawnShift(|g|, draws, attempts, more.value.cells);
          more
        else more
  }

  /** Cells drawn by the pairs after the first pair are drawn by the whole stream. */
  lemma WallsDrawnShift(n: nat, draws: seq<nat>, attempts: nat, cells: seq<Pos>)
    requires n > 0 && 1 <= attempts && 2 * attempts <= |draws|
    requires forall c | c in cells :: exists k | 0 <= k < attempts - 1 :: c == PairAt(n, draws[2..], k)
    ensures forall c | c in cells :: exists k | 0 <= k < attempts :: c == PairAt(n, draws, k)
  {
    forall c | c in cells
      ensures exists k | 0 <= k < attempts :: c == PairAt(n, draws, k)
    {
      var k :| 0 <= k < attempts - 1 && c == PairAt(n, draws[2..], k);
      assert PairAt(n, draws[2..], k) == PairAt(n, draws, k + 1);
    }
  }

  /** The cell has not yet been visited by a row-major scan now at (i, j). */
  predicate Pending(p: Pos, i: int, j: int) {
    p.row > i || (p.row == i && p.col >= j)
  }

  /** `p` comes strictly before `q` in row-major order. */
  predicate RowMajorBefore(p: Pos, q: Pos) {
    p.row < q.row || (p.row == q.row && p.col < q.col)
  }

  /** A monster is seeded on a cell exactly when the cell is blank and its coin comes up. */
  predicate Spawns(g: Grid, coin: Pos -> bool, p: Pos)
    requires InBounds(g, p)
  {
    At(g, p) == BLANK && coin(p)
  }

  /** The grid after seeding and the monster records appended, in scan order. */
  datatype Seeding = Seeding(maze: Grid, added: seq<Monster>)

  /** The nested loop of addMonsters from cell (i, j) on: every pending cell
      that spawns becomes 'M', every other cell is left alone. The records it
      appends are described by SeededRecords, SeededCover and SeededInOrder. */
  function SeedMonsters(g: Grid, coin: Pos -> bool, i: nat, j: nat): (r: Seeding)
    requires IsSquare(g) && i <= |g| && j <= |g|
    decreases |g| - i, |g| - j
    ensures SameShape(g, r.maze)
    ensures forall p | InBounds(g, p) ::
      At(r.maze, p) == (if Pending(p, i, j) && Spawns(g, coin, p) then MONSTER else At(g, p))
  {
    if i == |g| then Seeding(g, [])
    else if j == |g| then SeedMonsters(g, coin, i + 1, 0)
    else
      var p := Pos(i, j);
      if Spawns(g, coin, p) then
        var more := SeedMonsters(Put(g, p, MONSTER), coin, i, j + 1);
        Seeding(more.maze, [Monster(p, MONSTER, MONSTER_HEALTH)] + more.added)
      else
        SeedMonsters(g, coin, i, j + 1)
  }

  /** A cell still pending after the scan writes (i, j) was not written by it. */
  lemma PendingUntouched(g: Grid, coin: Pos -> bool, i: nat, j: nat, q: Pos)
    requires IsSquare(g) && i < |g| && j < |g| && InBounds(g, q)
    requires Pending(q, i, j + 1)
    ensures Spawns(Put(g, Pos(i, j), MONSTER), coin, q) == Spawns(g, coin, q)
  {
  }

  /** Every record in `added` is an 'M' with 50 health on a cell pending at
      (i, j) that spawns. */
  ghost predicate SpawnRecords(g: Grid, coin: Pos -> bool, i: int, j: int, added: seq<Monster>) {
    forall k | 0 <= k < |added| ::
      && added[k] == Monster(added[k].position, MONSTER, MONSTER_HEALTH)
      && InBounds(g, added[k].position)
      && Pending(added[k].position, i, j)
      && Spawns(g, coin, added[k].position)
  }

  /** Every cell pending at (i, j) that spawns has a record in `added`. */
  ghost predicate CoversSpawns(g: Grid, coin: Pos -> bool, i: int, j: int, added: seq<Monster>) {
    forall p | InBounds(g, p) && Pending(p, i, j) && Spawns(g, coin, p) ::
      exists k | 0 <= k < |added| :: added[k].position == p
  }

  /** The records come in strictly increasing row-major order of their cells. */
  ghost predicate InRowMajorOrder(added: seq<Monster>) {
    forall a, b | 0 <= a < b < |added| :: RowMajorBefore(added[a].position, added[b].position)
  }

  /** A record in front of an ordered list whose cells all come after its own
      keeps the list ordered. */
  lemma InOrderCons(m: Monster, more: seq<Monster>)
    requires InRowMajorOrder(more)
    requires forall k | 0 <= k < |more| :: RowMajorBefore(m.position, more[k].position)
    ensures InRowMajorOrder([m] + more)
  {
    var all := [m] + more;
    forall a, b | 0 <= a < b < |all|
      ensures RowMajorBefore(all[a].position, all[b].position)
    {
      assert all[b] == more[b - 1];
      if a > 0 {
        assert all[a] == more[a - 1];
      }
    }
  }

  /** Every record the scan appends is an 'M' with 50 health on a pending
      cell that spawns. */
  lemma {:induction false} SeededRecords(g: Grid, coin: Pos -> bool, i: nat, j: nat)
    requires IsSquare(g) && i <= |g| && j <= |g|
    decreases |g| - i, |g| - j
    ensures SpawnRecords(g, coin, i, j, SeedMonsters(g, coin, i, j).added)
  {
    if i == |g| {
    } else if j == |g| {
      SeededRecords(g, coin, i + 1, 0);
      assert SeedMonsters(g, coin, i, j) == SeedMonsters(g, coin, i + 1, 0);
    } else {
      var p := Pos(i, j);
      if Spawns(g, coin, p) {
        var g1 := Put(g, p, MONSTER);
        SeededRecords(g1, coin, i, j + 1);
        var more := SeedMonsters(g1, coin, i, j + 1).added;
        var added := SeedMonsters(g, coin, i, j).added;
        assert added == [Monster(p, MONSTER, MONSTER_HEALTH)] + more;
        forall k | 1 <= k < |added|
          ensures InBounds(g, added[k].position) && Pending(added[k].position, i, j)
          ensures Spawns(g, coin, added[k].position)
        {
          assert added[k] == more[k - 1];
          assert InBounds(g1, more[k - 1].position) && Pending(more[k - 1].position, i, j + 1);
          PendingUntouched(g, coin, i, j, more[k - 1].position);
        }
      } else {
        SeededRecords(g, coin, i, j + 1);
        assert SeedMonsters(g, coin, i, j) == SeedMonsters(g, coin, i, j + 1);
      }
    }
  }

  /** Every pending cell that spawns gets a record. */
  lemma {:induction false} SeededCover(g: Grid, coin: Pos -> bool, i: nat, j: nat)
    requires IsSquare(g) && i <= |g| && j <= |g|
    decreases |g| - i, |g| - j
    ensures CoversSpawns(g, coin, i, j, SeedMonsters(g, coin, i, j).added)
  {
    if i == |g| {
    } else if j == |g| {
      SeededCover(g, coin, i + 1, 0);
      assert SeedMonsters(g, coin, i, j) == SeedMonsters(g, coin, i + 1, 0);
    } else {
      var p := Pos(i, j);
      var added := SeedMonsters(g, coin, i, j).added;
      if Spawns(g, coin, p) {
        var g1 := Put(g, p, MONSTER);
        SeededCover(g1, coin, i, j + 1);
        var more := SeedMonsters(g1, coin, i, j + 1).added;
        assert added == [Monster(p, MONSTER, MONSTER_HEALTH)] + more;
        forall q | InBounds(g, q) && Pending(q, i, j) && Spawns(g, coin, q)
          ensures exists k | 0 <= k < |added| :: added[k].position == q
        {
          if q == p {
            assert added[0].position == q;
          } else {
            PendingUntouched(g, coin, i, j, q);
            var k :| 0 <= k < |more| && more[k].position == q;
            assert added[k + 1].position == q;
          }
        }
      } else {
        SeededCover(g, coin, i, j + 1);
        assert SeedMonsters(g, coin, i, j) == SeedMonsters(g, coin, i, j + 1);
      }
    }
  }

  /** The records come in row-major order of their cells. */
  lemma {:induction false} SeededInOrder(g: Grid, coin: Pos -> bool, i: nat, j: nat)
    requires IsSquare(g) && i <= |g| && j <= |g|
    decreases |g| - i, |g| - j
    ensures InRowMajorOrder(SeedMonsters(g, coin, i, j).added)
  {
    if i == |g| {
    } else if j == |g| {
      SeededInOrder(g, coin, i + 1, 0);
      assert SeedMonsters(g, coin, i, j) == SeedMonsters(g, coin, i + 1, 0);
    } else {
      var p := Pos(i, j);
      if Spawns(g, coin, p) {
        var g1 := Put(g, p, MONSTER);
        SeededInOrder(g1, coin, i, j + 1);
        SeededRecords(g1, coin, i, j + 1);
        var more := SeedMonsters(g1, coin, i, j + 1).added;
        assert SeedMonsters(g, coin, i, j).added == [Monster(p, MONSTER, MONSTER_HEALTH)] + more;
        assert forall k | 0 <= k < |more| :: Pending(more[k].position, i, j + 1);
        InOrderCons(Monster(p, MONSTER, MONSTER_HEALTH), more);
      } else {
        SeededInOrder(g, coin, i, j + 1);
        assert SeedMonsters(g, coin, i, j) == SeedMonsters(g, coin, i, j + 1);
      }
    }
  }

  /** Appending ordered records keeps the old list as a prefix, and the
      appended records keep their order and so have distinct cells. */
  lemma AppendOrdered(monsters: seq<Monster>, added: seq<Monster>)
    requires InRowMajorOrder(added)
    ensures var all := monsters + added;
      && all[..|monsters|] == monsters
      && all[|monsters|..] == added
      && (forall k | |monsters| <= k < |all| :: all[k] == added[k - |monsters|])
      && (forall a, b | |monsters| <= a < b < |all| :: all[a].position != all[b].position)
  {
    var all := monsters + added;
    assert all[..|monsters|] == monsters;
    assert all[|monsters|..] == added;
    forall a, b | |monsters| <= a < b < |all|
      ensures all[a].position != all[b].position
    {
      assert RowMajorBefore(added[a - |monsters|].position, added[b - |monsters|].position);
    }
  }

  /** The grid and the full monster list after addMonsters. */
  datatype Populated = Populated(maze: Grid, monsters: seq<Monster>)

  /** addMonsters: the list is extended, never reset, by one health-50 'M'
      record per cell that was blank and whose coin came up, in row-major
      order; exactly those cells become 'M'. */
  function AddMonsters(g: Grid, monsters: seq<Monster>, coin: Pos -> bool): (r: Populated)
    requires IsSquare(g)
    ensures OnlyBlanksWritten(g, r.maze)
    ensures forall p | InBounds(g, p) ::
      At(r.maze, p) == (if Spawns(g, coin, p) then MONSTER else At(g, p))
    ensures |r.monsters| >= |monsters| && r.monsters[..|monsters|] == monsters
    ensures forall k | |monsters| <= k < |r.monsters| ::
      && r.monsters[k] == Monster(r.monsters[k].position, MONSTER, MONSTER_HEALTH)
      && InBounds(g, r.monsters[k].position)
      && Spawns(g, coin, r.monsters[k].position)
      && At(r.maze, r.monsters[k].position) == MONSTER
    ensures forall p | InBounds(g, p) && Spawns(g, coin, p) ::
      exists k | |monsters| <= k < |r.monsters| :: r.monsters[k].position == p
    ensures forall a, b | |monsters| <= a < b < |r.monsters| ::
      r.monsters[a].position != r.monsters[b].position
    ensures InRowMajorOrder(r.monsters[|monsters|..])
  {
    var seeded := SeedMonsters(g, coin, 0, 0);
    SeededRecords(g, coin, 0, 0);
    SeededCover(g, coin, 0, 0);
    SeededInOrder(g, coin, 0, 0);
    var all := monsters + seeded.added;
    AppendOrdered(monsters, seeded.added);
    assert forall p | InBounds(g, p) && Spawns(g, coin, p) ::
      exists k | |monsters| <= k < |all| :: all[k].position == p by {
      forall p | InBounds(g, p) && Spawns(g, coin, p)
        ensures exists k | |monsters| <= k < |all| :: all[k].position == p
      {
        assert Pending(p, 0, 0);
        var k :| 0 <= k < |seeded.added| && seeded.added[k].position == p;
        assert all[k + |monsters|].position == p;
      }
    }
    Populated(seeded.maze, all)
  }

  /** The cells marked by the obstacle, wall and teleport steps. */
  datatype Layout = Layout(maze: Grid, obstacles: seq<Pos>, walls: seq<Pos>, teleports: seq<Pos>, rest: seq<nat>)

  /** A placement keeps its marks through any later step that only writes
      blanks, and the two steps together only write blanks. */
  lemma PlacedThenKept(g: Grid, h: Grid, k: Grid, mark: char, cells: seq<Pos>)
    requires Placed(g, h, mark, cells) && mark != BLANK
    requires OnlyBlanksWritten(h, k)
    ensures OnlyBlanksWritten(g, k)
    ensures forall c | c in cells :: InBounds(g, c) && At(k, c) == mark
  {
  }

  /** The bookkeeping of Obstruct: three placements in a row. */
  lemma ObstructChain(g: Grid, obstacles: Placement, walls: Placement, teleports: Placement)
    requires Placed(g, obstacles.maze, OBSTACLE, obstacles.cells)
    requires Placed(obstacles.maze, walls.maze, WALL, walls.cells)
    requires Placed(walls.maze, teleports.maze, TELEPORT, teleports.cells)
    ensures OnlyBlanksWritten(g, teleports.maze)
    ensures forall c | c in obstacles.cells :: InBounds(g, c) && At(teleports.maze, c) == OBSTACLE
    ensures forall c | c in walls.cells :: InBounds(g, c) && At(teleports.maze, c) == WALL
    ensures forall c | c in teleports.cells :: InBounds(g, c) && At(teleports.maze, c) == TELEPORT
  {
    PlacedWritesOnlyBlanks(walls.maze, teleports.maze, TELEPORT, teleports.cells);
    PlacedThenKept(obstacles.maze, walls.maze, teleports.maze, WALL, walls.cells);
    PlacedThenKept(g, obstacles.maze, teleports.maze, OBSTACLE, obstacles.cells);
  }

  /** The middle of generateMaze: 15 obstacles by resampling, size*size/4 wall
      attempts, then 5 teleports by resampling, each writing only blank cells. */
  function Obstruct(g: Grid, draws: seq<nat>): (r: Option<Layout>)
    requires IsSquare(g) && |g| > 0
    ensures r.Some? ==>
      var v := r.value;
      && OnlyBlanksWritten(g, v.maze)
      && Distinct(v.obstacles) && Distinct(v.walls) && Distinct(v.teleports)
      && |v.obstacles| == NUM_OBSTACLES
      && (forall c | c in v.obstacles :: InBounds(g, c) && At(v.maze, c) == OBSTACLE)
      && |v.walls| <= WallAttempts(|g|)
      && (forall c | c in v.walls :: InBounds(g, c) && At(v.maze, c) == WALL)
      && |v.teleports| == NUM_TELEPORTS
      && (forall c | c in v.teleports :: InBounds(g, c) && At(v.maze, c) == TELEPORT)
  {
    match PlaceMarks(g, OBSTACLE, NUM_OBSTACLES, draws)
    case None => None
    case Some(obstacles) =>
      match ScatterWalls(obstacles.maze, WallAttempts(|g|), obstacles.rest)
      case None => None
      case Some(walls) =>
        match PlaceMarks(walls.maze, TELEPORT, NUM_TELEPORTS, walls.rest)
        case None => None
        case Some(teleports) =>
          ObstructChain(g, obstacles, walls, teleports);
          Some(Layout(teleports.maze, obstacles.cells, walls.cells, teleports.cells, teleports.rest))
  }

  /** Everything generateMaze does after the goal: the layout of Obstruct and
      then addMonsters, all of it writing blank cells only. */
  function Furnish(g: Grid, monsters: seq<Monster>, draws: seq<nat>, coin: Pos -> bool): (r: Option<(Layout, Populated)>)
    requires IsSquare(g) && |g| > 0
    ensures r.Some? ==>
      var (v, p) := r.value;
      && OnlyBlanksWritten(g, p.maze)
      && Distinct(v.obstacles) && Distinct(v.walls) && Distinct(v.teleports)
      && |v.obstacles| == NUM_OBSTACLES
      && (forall c | c in v.obstacles :: InBounds(g, c) && At(p.maze, c) == OBSTACLE)
      && |v.walls| <= WallAttempts(|g|)
      && (forall c | c in v.walls :: InBounds(g, c) && At(p.maze, c) == WALL)
      && |v.teleports| == NUM_TELEPORTS
      && (forall c | c in v.teleports :: InBounds(g, c) && At(p.maze, c) == TELEPORT)
      && |p.monsters| >= |monsters| && p.monsters[..|monsters|] == monsters
      && (forall k | |monsters| <= k < |p.monsters| ::
            && p.monsters[k] == Monster(p.monsters[k].position, MONSTER, MONSTER_HEALTH)
            && InBounds(g, p.monsters[k].position)
            && At(p.maze, p.monsters[k].position) == MONSTER)
  {
    match Obstruct(g, draws)
    case None => None
    case Some(layout) =>
      var populated := AddMonsters(layout.maze, monsters, coin);
      FurnishChain(g, layout, populated);
      Some((layout, populated))
  }

  lemma FurnishChain(g: Grid, layout: Layout, populated: Populated)
    requires OnlyBlanksWritten(g, layout.maze)
    requires OnlyBlanksWritten(layout.maze, populated.maze)
    requires forall c | c in layout.obstacles :: InBounds(g, c) && At(layout.maze, c) == OBSTACLE
    requires forall c | c in layout.walls :: InBounds(g, c) && At(layout.maze, c) == WALL
    requires forall c | c in layout.teleports :: InBounds(g, c) && At(layout.maze, c) == TELEPORT
    ensures OnlyBlanksWritten(g, populated.maze)
    ensures forall c | c in layout.obstacles :: At(populated.maze, c) == OBSTACLE
    ensures forall c | c in layout.walls :: At(populated.maze, c) == WALL
    ensures forall c | c in layout.teleports :: At(populated.maze, c) == TELEPORT
  {
    OnlyBlanksWrittenTransitive(g, layout.maze, populated.maze);
  }

  /** The start of generateMaze: a blank size x size grid, the players seated
      on the first pairs of the stream, then the goal drawn by resampling until
      blank. The goal cell is the first pair after the players' pairs that
      lands on a cell still blank after seating; generateMaze then writes 'G'
      there. It fails exactly when the stream is too short for the seating,
      or no later pair lands on a blank cell. */
  function SeatAndGoal(size: nat, players: seq<Player>, draws: seq<nat>): (r: Option<(Seated, Drawn)>)
    requires size > 0
    ensures r.None? <==>
      || |draws| < 2 * |players|
      || NoBlankPair(PlacePlayers(BlankGrid(size), players, draws).value.maze, draws[2 * |players|..])
    ensures r.Some? ==> SeatedFrom(BlankGrid(size), players, draws, r.value.0)
    ensures r.Some? ==>
      var (seated, goal) := r.value;
      && |seated.maze| == size && IsSquare(seated.maze)
      && |seated.players| == |players|
      && (forall k | 0 <= k < |players| ::
            seated.players[k] == players[k].(position := seated.players[k].position)
            && InBounds(seated.maze, seated.players[k].position))
      && 2 * |players| <= |draws|
      && FirstBlank(seated.maze, draws[2 * |players|..], goal)
  {
    match PlacePlayers(BlankGrid(size), players, draws)
    case None => None
    case Some(seated) =>
      match DrawBlank(seated.maze, seated.rest)
      case None => None
      case Some(goal) =>
        PlacePlayersSeated(BlankGrid(size), players, draws);
        FirstBlankExcludesNone(seated.maze, seated.rest, goal);
        Some((seated, goal))
  }

  /** A generated level: the grid, the seated players, the monster list, the
      goal, the unconsumed draws, and the cells marked by the obstacle, wall
      and teleport steps. */
  datatype Level = Level(
    maze: Grid,
    players: seq<Player>,
    monsters: seq<Monster>,
    goal: Pos,
    rest: seq<nat>,
    obstacles: seq<Pos>,
    walls: seq<Pos>,
    teleports: seq<Pos>)

  /** generateMaze(size). `None` when the stream runs out before the last
      resample loop or wall attempt is done. The players keep their symbol,
      health and sword; only their positions are redrawn. */
  function GenerateMaze(size: nat, players: seq<Player>, monsters: seq<Monster>,
                        draws: seq<nat>, coin: Pos -> bool): (r: Option<Level>)
    requires size > 0
    ensures r.Some? ==>
      var v := r.value;
      && |v.maze| == size && IsSquare(v.maze)
      && Repositioned(players, v.players)
      && (forall k | 0 <= k < |players| :: InBounds(v.maze, v.players[k].position))
      && InBounds(v.maze, v.goal) && At(v.maze, v.goal) == GOAL
  {
    match SeatAndGoal(size, players, draws)
    case None => None
    case Some((seated, goal)) =>
        var g1 := Put(seated.maze, goal.cell, GOAL);
        match Furnish(g1, monsters, goal.rest, coin)
        case None => None
        case Some((layout, populated)) =>
          SameShapeKeepsBounds(seated.maze, g1);
          SameShapeKeepsBounds(g1, populated.maze);
          NonBlankKept(g1, populated.maze, goal.cell);
          Some(Level(populated.maze, seated.players, populated.monsters, goal.cell,
                     layout.rest, layout.obstacles, layout.walls, layout.teleports))
  }

  /** The marks of a generated level: 15 distinct obstacle cells, 5 distinct
      teleport cells and at most size*size/4 distinct wall cells, each still
      showing its symbol when generation ends. */
  lemma GeneratedMarks(size: nat, players: seq<Player>, monsters: seq<Monster>,
                       draws: seq<nat>, coin: Pos -> bool)
    requires size > 0
    ensures var r := GenerateMaze(size, players, monsters, draws, coin);
      r.Some? ==> var v := r.value;
      && Distinct(v.obstacles) && Distinct(v.walls) && Distinct(v.teleports)
      && |v.obstacles| == NUM_OBSTACLES
      && (forall c | c in v.obstacles :: InBounds(v.maze, c) && At(v.maze, c) == OBSTACLE)
      && |v.teleports| == NUM_TELEPORTS
      && (forall c | c in v.teleports :: InBounds(v.maze, c) && At(v.maze, c) == TELEPORT)
      && |v.walls| <= WallAttempts(size)
      && (forall c | c in v.walls :: InBounds(v.maze, c) && At(v.maze, c) == WALL)
  {
  }

  /** The monster list of a generated level: the old list is kept as a prefix
      (it is never cleared), followed by fresh health-50 'M' records, each on a
      cell showing 'M'. */
  lemma GeneratedMonsters(size: nat, players: seq<Player>, monsters: seq<Monster>,
                          draws: seq<nat>, coin: Pos -> bool)
    requires size > 0
    ensures var r := GenerateMaze(size, players, monsters, draws, coin);
      r.Some? ==> var v := r.value;
      && |v.monsters| >= |monsters| && v.monsters[..|monsters|] == monsters
      && (forall k | |monsters| <= k < |v.monsters| ::
            && v.monsters[k] == Monster(v.monsters[k].position, MONSTER, MONSTER_HEALTH)
            && InBounds(v.maze, v.monsters[k].position)
            && At(v.maze, v.monsters[k].position) == MONSTER)
  {
  }

  /** With the game's roster every seated player's cell shows '1' or '2'. */
  lemma SeatedShowRoster(size: nat, players: seq<Player>, draws: seq<nat>)
    requires size > 0 && ValidRoster(players)
    ensures var r := SeatAndGoal(size, players, draws);
      r.Some? ==> var seated := r.value.0;
      forall k | 0 <= k < |seated.players| ::
        At(seated.maze, seated.players[k].position) == PlayerSymbol(0)
        || At(seated.maze, seated.players[k].position) == PlayerSymbol(1)
  {
    if SeatAndGoal(size, players, draws).Some? {
      var seated := PlacePlayers(BlankGrid(size), players, draws).value;
      assert seated == SeatAndGoal(size, players, draws).value.0;
      forall k | 0 <= k < |seated.players|
        ensures At(seated.maze, seated.players[k].position) == PlayerSymbol(0)
                || At(seated.maze, seated.players[k].position) == PlayerSymbol(1)
      {
        ShownBySeated(seated.players, seated.players[k].position, BLANK);
      }
    }
  }

  /** A cell showing '1' or '2' is not the blank cell the goal was drawn on,
      and keeps its symbol through the goal and every later step. */
  lemma PlayersSurvive(seated: Grid, final: Grid, ps: seq<Player>, goal: Pos)
    requires forall k | 0 <= k < |ps| ::
      InBounds(seated, ps[k].position)
      && (At(seated, ps[k].position) == PlayerSymbol(0) || At(seated, ps[k].position) == PlayerSymbol(1))
    requires InBounds(seated, goal) && At(seated, goal) == BLANK
    requires OnlyBlanksWritten(Put(seated, goal, GOAL), final)
    ensures forall k | 0 <= k < |ps| ::
      && ps[k].position != goal
      && InBounds(final, ps[k].position)
      && At(final, ps[k].position) == At(seated, ps[k].position)
  {
  }

  /** The layout of a generated level with the game's roster: the players'
      cells still show '1' or '2' when generation ends, so the goal, the
      obstacles, the walls and the teleports never share a cell with a player,
      and no player starts on the goal. */
  lemma GeneratedLayout(size: nat, players: seq<Player>, monsters: seq<Monster>,
                        draws: seq<nat>, coin: Pos -> bool)
    requires size > 0 && ValidRoster(players)
    ensures var r := GenerateMaze(size, players, monsters, draws, coin);
      r.Some? ==> var v := r.value;
      forall k | 0 <= k < |v.players| ::
        && (At(v.maze, v.players[k].position) == PlayerSymbol(0)
            || At(v.maze, v.players[k].position) == PlayerSymbol(1))
        && v.players[k].position != v.goal
        && v.players[k].position !in v.obstacles
        && v.players[k].position !in v.walls
        && v.players[k].position !in v.teleports
  {
    if GenerateMaze(size, players, monsters, draws, coin).Some? {
      var v := GenerateMaze(size, players, monsters, draws, coin).value;
      var (seated, goal) := SeatAndGoal(size, players, draws).value;
      var g1 := Put(seated.maze, goal.cell, GOAL);
      var (layout, populated) := Furnish(g1, monsters, goal.rest, coin).value;
      assert v.maze == populated.maze && v.players == seated.players && v.goal == goal.cell;
      SeatedShowRoster(size, players, draws);
      PlayersSurvive(seated.maze, populated.maze, seated.players, goal.cell);
      GeneratedMarks(size, players, monsters, draws, coin);
      forall k | 0 <= k < |v.players|
        ensures v.players[k].position !in v.obstacles
        ensures v.players[k].position !in v.walls
        ensures v.players[k].position !in v.teleports
      {
        var c := v.players[k].position;
        assert At(v.maze, c) == PlayerSymbol(0) || At(v.maze, c) == PlayerSymbol(1);
      }
    }
  }
}

=== FILE: grid.dfy ===
/** The maze itself: a matrix of one-character cells, addressed by
    (row, column). Only storage and bounds live here; every rule about what a
    symbol means belongs to the modules that use the grid. */
module GridModel {

  type Grid = seq<seq<char>>

  datatype Pos = Pos(row: int, col: int)

  const BLANK: char := ' '
  const WALL: char := '#'
  const OBSTACLE: char := 'X'
  const TELEPORT: char := 'T'
  const GOAL: char := 'G'
  const MONSTER: char := 'M'

  /** Every row is as long as the grid is tall (the game only builds size x size grids). */
  predicate IsSquare(g: Grid) {
    forall r | 0 <= r < |g| :: |g[r]| == |g|
  }

  /** The row is a row of the grid and the column lies within that row. */
  predicate InBounds(g: Grid, p: Pos) {
    0 <= p.row < |g| && 0 <= p.col < |g[p.row]|
  }

  function At(g: Grid, p: Pos): char
    requires InBounds(g, p)
  {
    g[p.row][p.col]
  }

  /** No cell occurs twice in the list. */
  predicate Distinct(cells: seq<Pos>) {
    forall a, b | 0 <= a < b < |cells| :: cells[a] != cells[b]
  }

  predicate SameShape(g: Grid, h: Grid) {
    |g| == |h| && forall r | 0 <= r < |g| :: |g[r]| == |h[r]|
  }

  /** `h` differs from `g` at most in cells that were blank in `g`: the
      placement discipline every generation step after the players follows. */
  ghost predicate OnlyBlanksWritten(g: Grid, h: Grid) {
    && SameShape(g, h)
    && forall p | InBounds(g, p) && At(g, p) != BLANK :: At(h, p) == At(g, p)
  }

  /** Writing one cell: the cell reads back as written and no other cell changes. */
  function Put(g: Grid, p: Pos, c: char): (h: Grid)
    requires InBounds(g, p)
    ensures SameShape(g, h)
    ensures At(h, p) == c
    ensures forall q | InBounds(g, q) && q != p :: At(h, q) == At(g, q)
  {
    g[p.row := g[p.row][p.col := c]]
  }

  /** The freshly allocated n x n grid of blank cells. */
  function BlankGrid(n: nat): (g: Grid)
    ensures |g| == n && IsSquare(g)
    ensures forall p | InBounds(g, p) :: At(g, p) == BLANK
  {
    seq(n, _ => seq(n, _ => BLANK))
  }

  /** Grids are equal when they have the same shape and agree on every cell. */
  lemma GridsEqual(g: Grid, h: Grid)
    requires SameShape(g, h)
    requires forall p | InBounds(g, p) :: At(g, p) == At(h, p)
    ensures g == h
  {
    forall r | 0 <= r < |g|
      ensures g[r] == h[r]
    {
      forall c | 0 <= c < |g[r]|
        ensures g[r][c] == h[r][c]
      {
        assert At(g, Pos(r, c)) == At(h, Pos(r, c));
      }
    }
  }

  /** Grids of the same shape have the same cells in bounds. */
  lemma SameShapeKeepsBounds(g: Grid, h: Grid)
    requires SameShape(g, h)
    ensures |h| == |g| && (IsSquare(g) ==> IsSquare(h))
    ensures forall p | InBounds(g, p) :: InBounds(h, p)
  {
  }

  /** A cell that was not blank reads the same after blank-only writes. */
  lemma NonBlankKept(g: Grid, h: Grid, p: Pos)
    requires OnlyBlanksWritten(g, h) && InBounds(g, p) && At(g, p) != BLANK
    ensures InBounds(h, p) && At(h, p) == At(g, p)
  {
  }

  /** Two cells trade a symbol and a blank, and then trade them back: the
      grid is what it was. */
  lemma SwapBack(g: Grid, g1: Grid, g2: Grid, a: Pos, b: Pos, c: char)
    requires SameShape(g, g1) && SameShape(g1, g2)
    requires InBounds(g, a) && InBounds(g, b) && a != b
    requires At(g, a) == c && At(g, b) == BLANK
    requires At(g1, a) == BLANK && At(g1, b) == c
    requires At(g2, a) == c && At(g2, b) == BLANK
    requires forall q | InBounds(g, q) && q != a && q != b :: At(g1, q) == At(g, q)
    requires forall q | InBounds(g1, q) && q != a && q != b :: At(g2, q) == At(g1, q)
    ensures g2 == g
  {
    forall q | InBounds(g, q)
      ensures At(g2, q) == At(g, q)
    {
      if q != a && q != b {
        assert InBounds(g1, q);
      }
    }
    GridsEqual(g2, g);
  }

  lemma OnlyBlanksWrittenTransitive(g: Grid, h: Grid, k: Grid)
    requires OnlyBlanksWritten(g, h) && OnlyBlanksWritten(h, k)
    ensures OnlyBlanksWritten(g, k)
  {
  }
}

=== FILE: movement.dfy ===
/** Moving a player one cell (movePlayer): the direction keys, the bounds and
    blocking checks, the rewrite of the two cells, and the teleport branch
    exactly as the game writes it. */
module Movement {
  import opened Wrappers
  import opened GridModel
  import opened Draws
  import opened Entities

  /** The cell one step from `p` in direction `dir`: 'w' up (row - 1),
      'a' left (column - 1), 's' down (row + 1), 'd' right (column + 1). */
  function Target(p: Pos, dir: char): (t: Option<Pos>)
    ensures t.Some? <==> IsDirection(dir)
    ensures t.Some? ==> Adjacent(p, t.value)
    ensures dir == 'w' || dir == 's' ==>
      t.value.col == p.col && t.value.row == p.row + (if dir == 's' then 1 else -1)
    ensures dir == 'a' || dir == 'd' ==>
      t.value.row == p.row && t.value.col == p.col + (if dir == 'd' then 1 else -1)
  {
    match dir
    case 'w' => Some(Pos(p.row - 1, p.col))
    case 'a' => Some(Pos(p.row, p.col - 1))
    case 's' => Some(Pos(p.row + 1, p.col))
    case 'd' => Some(Pos(p.row, p.col + 1))
    case _ => None
  }

  predicate IsDirection(dir: char) {
    dir == 'w' || dir == 'a' || dir == 's' || dir == 'd'
  }

  /** `q` is one row or one column away from `p`, not both. */
  predicate Adjacent(p: Pos, q: Pos) {
    || (p.row == q.row && (q.col == p.col + 1 || q.col == p.col - 1))
    || (p.col == q.col && (q.row == p.row + 1 || q.row == p.row - 1))
  }

  /** The key that undoes a step. */
  function Opposite(dir: char): (o: char)
    requires IsDirection(dir)
    ensures IsDirection(o) && o != dir
  {
    match dir
    case 'w' => 's'
    case 's' => 'w'
    case 'a' => 'd'
    case _ => 'a'
  }

  /** The opposite key leads back to the cell the step started from. */
  lemma OppositeUndoes(p: Pos, dir: char)
    requires IsDirection(dir)
    ensures Target(Target(p, dir).value, Opposite(dir)) == Some(p)
  {
  }

  /** A cell a player may not enter: a wall, an obstacle, or the symbol of
      either player (its own included). */
  predicate Blocks(c: char, players: seq<Player>)
    requires |players| == MAX_PLAYERS
  {
    c == WALL || c == OBSTACLE || c == players[0].symbol || c == players[1].symbol
  }

  /** The guard of a move: a direction key whose target is inside the maze
      and not blocked. */
  predicate CanMove(s: Game, i: nat, dir: char)
    requires |s.players| == MAX_PLAYERS && i < MAX_PLAYERS
  {
    var t := Target(s.players[i].position, dir);
    t.Some? && InBounds(s.maze, t.value) && !Blocks(At(s.maze, t.value), s.players)
  }

  /** The outcome of movePlayer. `Blocked` is its `false` return, which
      leaves the game untouched; `Moved` is its `true` return with the new
      game; `OutOfDraws` is a teleport whose resample loop needed more draws
      than were supplied. */
  datatype MoveResult = Blocked | Moved(game: Game, draws: seq<nat>) | OutOfDraws

  function MovePlayer(s: Game, i: nat, dir: char, draws: seq<nat>): (r: MoveResult)
    requires IsSquare(s.maze)
    requires |s.players| == MAX_PLAYERS && i < MAX_PLAYERS
    requires InBounds(s.maze, s.players[i].position)
    ensures r.Blocked? <==> !CanMove(s, i, dir)
    // only the mover's position changes among the entities
    ensures r.Moved? ==>
      && r.game.monsters == s.monsters && r.game.goal == s.goal && r.game.level == s.level
      && |r.game.players| == |s.players|
      && r.game.players == s.players[i := s.players[i].(position := r.game.players[i].position)]
      && SameShape(s.maze, r.game.maze)
      && InBounds(r.game.maze, r.game.players[i].position)
      && At(r.game.maze, r.game.players[i].position) == s.players[i].symbol
    // with a symbol other than 'T' the move is one plain step
    ensures r.Moved? && s.players[i].symbol != TELEPORT ==>
      var from := s.players[i].position;
      var to := r.game.players[i].position;
      && Target(from, dir) == Some(to)
      && r.draws == draws
      && At(r.game.maze, from) == BLANK
      && At(r.game.maze, to) == s.players[i].symbol
      && forall q | InBounds(s.maze, q) && q != from && q != to :: At(r.game.maze, q) == At(s.maze, q)
    ensures s.players[i].symbol != TELEPORT ==> !r.OutOfDraws?
  {
    var p := s.players[i];
    match Target(p.position, dir)
    case None => Blocked
    case Some(t) =>
      if !(InBounds(s.maze, t) && !Blocks(At(s.maze, t), s.players)) then Blocked
      else
        var g1 := Put(Put(s.maze, p.position, BLANK), t, p.symbol);
        // the teleport test reads the cell that was just given the mover's symbol
        if At(g1, t) == TELEPORT then
          match DrawBlank(g1, draws)
          case None => OutOfDraws
          case Some(d) =>
            var g2 := Put(Put(g1, t, BLANK), d.cell, p.symbol);
            Moved(s.(maze := g2, players := s.players[i := p.(position := d.cell)]), d.rest)
        else
          Moved(s.(maze := g1, players := s.players[i := p.(position := t)]), draws)
  }

  /** The teleport branch is dead for every player symbol other than 'T'
      (the game's are '1' and '2'): the supplied draws are never consulted and
      a successful move lands exactly one step away. */
  lemma NeverTeleports(s: Game, i: nat, dir: char, draws: seq<nat>)
    requires IsSquare(s.maze)
    requires |s.players| == MAX_PLAYERS && i < MAX_PLAYERS
    requires InBounds(s.maze, s.players[i].position)
    requires s.players[i].symbol != TELEPORT
    ensures var r := MovePlayer(s, i, dir, draws);
      || r == Blocked
      || (&& r.Moved? && r.draws == draws
          && MovePlayer(s, i, dir, []) == Moved(r.game, [])
          && Adjacent(s.players[i].position, r.game.players[i].position))
  {
  }

  /** A move that leaves a cell showing the mover for a blank cell is undone
      by the opposite key: the whole game comes back. */
  lemma MoveThenBack(s: Game, i: nat, dir: char)
    requires IsSquare(s.maze)
    requires ValidRoster(s.players) && i < MAX_PLAYERS
    requires InBounds(s.maze, s.players[i].position)
    requires At(s.maze, s.players[i].position) == s.players[i].symbol
    requires MovePlayer(s, i, dir, []).Moved?
    requires At(s.maze, MovePlayer(s, i, dir, []).game.players[i].position) == BLANK
    ensures MovePlayer(MovePlayer(s, i, dir, []).game, i, Opposite(dir), []) == Moved(s, [])
  {
    var s1 := MovePlayer(s, i, dir, []).game;
    StepBack(s, s1, i, dir);
  }

  /** The second half of MoveThenBack, stated over the cells the first step
      changed rather than over the first call. */
  lemma StepBack(s: Game, s1: Game, i: nat, dir: char)
    requires IsSquare(s.maze)
    requires |s.players| == MAX_PLAYERS && i < MAX_PLAYERS
    requires s.players[0].symbol != BLANK && s.players[1].symbol != BLANK
    requires s.players[i].symbol != TELEPORT
    requires IsDirection(dir)
    requires var from := s.players[i].position;
      && InBounds(s.maze, from) && At(s.maze, from) == s.players[i].symbol
      && s1.monsters == s.monsters && s1.goal == s.goal && s1.level == s.level
      && |s1.players| == |s.players|
      && s1.players == s.players[i := s.players[i].(position := s1.players[i].position)]
      && SameShape(s.maze, s1.maze)
      && Target(from, dir) == Some(s1.players[i].position)
      && InBounds(s.maze, s1.players[i].position)
      && At(s.maze, s1.players[i].position) == BLANK
      && At(s1.maze, from) == BLANK
      && At(s1.maze, s1.players[i].position) == s.players[i].symbol
      && forall q | InBounds(s.maze, q) && q != from && q != s1.players[i].position ::
           At(s1.maze, q) == At(s.maze, q)
    ensures MovePlayer(s1, i, Opposite(dir), []) == Moved(s, [])
  {
    var from := s.players[i].position;
    var to := s1.players[i].position;
    var back := Opposite(dir);
    OppositeUndoes(from, dir);
    assert IsSquare(s1.maze);
    var r2 := MovePlayer(s1, i, back, []);
    assert r2.Moved? by {
      assert CanMove(s1, i, back);
    }
    var s2 := r2.game;
    assert s2.players[i].position == from;
    SwapBack(s.maze, s1.maze, s2.maze, from, to, s.players[i].symbol);
    assert s2.players == s.players;
  }
}

=== FILE: turns.dfy ===
/** The game loop of play(): one command of one player, a round of commands
    for every player in order, the level loop that runs rounds until a player
    stands on the goal, and the level counter. */
module Turns {
  import opened Wrappers
  import opened GridModel
  import opened Entities
  import opened Movement
  import opened Combat
  import opened Generator

  /** isLevelComplete: some player stands on the goal cell. */
  function IsLevelComplete(players: seq<Player>, goal: Pos): (done: bool)
    ensures done <==> exists k | 0 <= k < |players| :: players[k].position == goal
  {
    if |players| == 0 then false
    else if players[0].position == goal then true
    else
      var rest := IsLevelComplete(players[1..], goal);
      assert forall k | 1 <= k < |players| :: players[k] == players[1..][k - 1];
      rest
  }

  /** What a turn reports back to the prompt. */
  datatype Outcome =
    | Walked          // a move that did not end on the goal
    | ReachedGoal     // a move onto the goal: the rest of the turn is skipped
    | BlockedMove     // "Invalid move. Try again."
    | Attacked        // 'k' with a sword and a monster on the cell
    | NeedSword       // 'k' otherwise
    | Regenerated     // 'r'
    | ShowedStatus    // 'p'
    | UnknownCommand  // any other key

  datatype Turn = Turn(game: Game, outcome: Outcome)

  predicate IsCommand(cmd: char) {
    IsDirection(cmd) || cmd == 'k' || cmd == 'r' || cmd == 'p'
  }

  /** Player i heals as regenerateHealth says; nobody else changes. */
  function Heal(s: Game, i: nat): Game
    requires i < |s.players|
  {
    s.(players := s.players[i := RegenerateHealth(s.players[i])])
  }

  /** The movement keys of play(): move, and unless the goal was reached,
      fight whatever monster record is on the new cell, then regenerate. */
  function MoveTurn(s: Game, i: nat, dir: char): (t: Turn)
    requires WellFormed(s) && i < |s.players| && IsDirection(dir)
    ensures WellFormed(t.game)
    ensures t.game.goal == s.goal && t.game.level == s.level
    ensures |t.game.players| == |s.players|
  {
    var m := MovePlayer(s, i, dir, []);
    if m.Blocked? then Turn(s, BlockedMove)
    else
      assert m.Moved?;
      var s1 := m.game;
      assert WellFormed(s1) by {
        assert forall k | 0 <= k < |s1.players| && k != i :: s1.players[k] == s.players[k];
        ReshapeKeepsWellFormed(s, s1.maze);
      }
      if s1.players[i].position == s1.goal then Turn(s1, ReachedGoal)
      else
        var s2 := if CheckEncounterMonster(s1.monsters, s1.players[i].position)
                  then AttackMonster(s1, i) else s1;
        ReshapeKeepsWellFormed(s1, s2.maze);
        Turn(Heal(s2, i), Walked)
  }

  /** One command of player i (the switch of play()). A successful move that
      does not end on the goal triggers an attack when a monster record is
      on the new cell (sword or not) and then a regeneration. The teleport
      branch of the move is dead for the roster's symbols, so no draws are
      passed. */
  function Step(s: Game, i: nat, cmd: char): (t: Turn)
    requires WellFormed(s) && i < |s.players|
    ensures WellFormed(t.game)
    ensures t.game.goal == s.goal && t.game.level == s.level
    ensures |t.game.players| == |s.players|
  {
    match cmd
    case 'w' | 'a' | 's' | 'd' => MoveTurn(s, i, cmd)
    case 'k' =>
      if s.players[i].hasSword && CheckEncounterMonster(s.monsters, s.players[i].position)
      then
        ReshapeKeepsWellFormed(s, AttackMonster(s, i).maze);
        Turn(AttackMonster(s, i), Attacked)
      else Turn(s, NeedSword)
    case 'r' => Turn(Heal(s, i), Regenerated)
    case 'p' => Turn(s, ShowedStatus)
    case _ => Turn(s, UnknownCommand)
  }

  /** A turn touches only the acting player: every other player record is
      unchanged, the actor keeps its symbol and its sword flag (nothing ever
      hands out a sword), and its health only grows, never past 100. */
  ghost predicate ActorOnly(s: Game, r: Game, i: nat)
    requires i < |s.players|
  {
    && |r.players| == |s.players|
    && (forall j | 0 <= j < |s.players| && j != i :: r.players[j] == s.players[j])
    && r.players[i].symbol == s.players[i].symbol
    && r.players[i].hasSword == s.players[i].hasSword
    && s.players[i].health <= r.players[i].health
    && (s.players[i].health <= MAX_HEALTH ==> r.players[i].health <= MAX_HEALTH)
  }

  lemma MoveTurnFrame(s: Game, i: nat, dir: char)
    requires WellFormed(s) && i < |s.players| && IsDirection(dir)
    ensures ActorOnly(s, MoveTurn(s, i, dir).game, i)
  {
    var m := MovePlayer(s, i, dir, []);
    var t := MoveTurn(s, i, dir).game;
    if m.Moved? {
      var s1 := m.game;
      assert s1.players == s.players[i := s.players[i].(position := s1.players[i].position)];
      if s1.players[i].position == s1.goal {
        assert t == s1;
      } else {
        var s2 := if CheckEncounterMonster(s1.monsters, s1.players[i].position)
                  then AttackMonster(s1, i) else s1;
        assert s2.players == s1.players;
        RegenerationBounded(s1.players[i]);
        assert t.players == s1.players[i := RegenerateHealth(s1.players[i])];
      }
    }
  }

  lemma StepFrame(s: Game, i: nat, cmd: char)
    requires WellFormed(s) && i < |s.players|
    ensures ActorOnly(s, Step(s, i, cmd).game, i)
  {
    if IsDirection(cmd) {
      MoveTurnFrame(s, i, cmd);
    } else if cmd == 'r' {
      RegenerationBounded(s.players[i]);
    }
  }

  /** The rest of the command switch, in terms of the operations it calls: a
      legal move that does not end on the goal is the move, then attackMonster
      when a monster record is on the new cell, then the regeneration, and it
      reports a walk; a move onto the goal is the move alone; 'k' with a sword
      and a monster on the cell is attackMonster. */
  lemma StepCalls(s: Game, i: nat, cmd: char)
    requires WellFormed(s) && i < |s.players|
    ensures IsDirection(cmd) && CanMove(s, i, cmd) && Target(s.players[i].position, cmd) != Some(s.goal) ==>
      && MovePlayer(s, i, cmd, []).Moved?
      && var m := MovePlayer(s, i, cmd, []).game;
         Step(s, i, cmd) ==
           Turn(Heal(if CheckEncounterMonster(m.monsters, m.players[i].position) then AttackMonster(m, i) else m, i),
                Walked)
    ensures var t := Step(s, i, cmd);
      && (t.outcome.Walked? && !CheckEncounterMonster(s.monsters, Target(s.players[i].position, cmd).value) ==>
            && MovePlayer(s, i, cmd, []).Moved?
            && t == Turn(Heal(MovePlayer(s, i, cmd, []).game, i), Walked))
      && (t.outcome.ReachedGoal? ==>
            && MovePlayer(s, i, cmd, []).Moved?
            && t.game == MovePlayer(s, i, cmd, []).game)
      && (cmd == 'k' && s.players[i].hasSword && CheckEncounterMonster(s.monsters, s.players[i].position) ==>
            t == Turn(AttackMonster(s, i), Attacked))
  {
    if IsDirection(cmd) {
      var m := MovePlayer(s, i, cmd, []);
      assert Step(s, i, cmd) == MoveTurn(s, i, cmd);
      if m.Moved? {
        assert m.game.monsters == s.monsters;
        assert m.game.players[i].position == Target(s.players[i].position, cmd).value;
      }
    }
  }

  /** The reports of a turn: a blocked move, a refused 'k', a status query and
      an unknown key change nothing ('p' always reports the status, and 'k'
      without both a sword and a monster on the cell is refused); a move is blocked exactly when its guard
      fails; the goal report comes exactly from a legal step onto the goal and
      leaves the level complete. */
  lemma StepOutcomes(s: Game, i: nat, cmd: char)
    requires WellFormed(s) && i < |s.players|
    ensures var t := Step(s, i, cmd);
      && ((t.outcome.BlockedMove? || t.outcome.NeedSword? || t.outcome.ShowedStatus?
           || t.outcome.UnknownCommand?) ==> t.game == s)
      && (t.outcome.BlockedMove? <==> IsDirection(cmd) && !CanMove(s, i, cmd))
      && (t.outcome.ReachedGoal? <==>
            IsDirection(cmd) && CanMove(s, i, cmd) && Target(s.players[i].position, cmd) == Some(s.goal))
      && (t.outcome.ReachedGoal? ==>
            t.game.players[i].position == s.goal && IsLevelComplete(t.game.players, t.game.goal))
      && (!IsCommand(cmd) ==> t == Turn(s, UnknownCommand))
      && (cmd == 'p' ==> t == Turn(s, ShowedStatus))
      && (cmd == 'k' && !(s.players[i].hasSword && CheckEncounterMonster(s.monsters, s.players[i].position)) ==>
            t == Turn(s, NeedSword))
  {
  }

  /** What the turns that do something do to the actor: a move that does not
      end on the goal leaves it on the target cell with its health
      regenerated (whatever the automatic attack did), and 'r' regenerates its
      health and changes nothing else. */
  lemma StepEffects(s: Game, i: nat, cmd: char)
    requires WellFormed(s) && i < |s.players|
    ensures var t := Step(s, i, cmd);
      && (t.outcome.Walked? ==>
            && IsDirection(cmd)
            && t.game.players[i].position == Target(s.players[i].position, cmd).value
            && t.game.players[i].health == RegenerateHealth(s.players[i]).health)
      && (cmd == 'r' ==> t == Turn(Heal(s, i), Regenerated))
  {
    if IsDirection(cmd) {
      var m := MovePlayer(s, i, cmd, []);
      var t := MoveTurn(s, i, cmd);
      assert Step(s, i, cmd) == t;
      if m.Moved? {
        var s1 := m.game;
        assert s1.players == s.players[i := s.players[i].(position := s1.players[i].position)];
        assert s1.players[i].position == Target(s.players[i].position, cmd).value;
        if s1.players[i].position != s1.goal {
          var s2 := if CheckEncounterMonster(s1.monsters, s1.players[i].position)
                    then AttackMonster(s1, i) else s1;
          assert s2.players == s1.players;
          assert t.game.players == s1.players[i := RegenerateHealth(s1.players[i])];
        }
      }
    }
  }

  /** Without a sword 'k' does nothing but complain. */
  lemma KillNeedsSword(s: Game, i: nat)
    requires WellFormed(s) && i < |s.players|
    requires !s.players[i].hasSword
    ensures Step(s, i, 'k') == Turn(s, NeedSword)
  {
  }

  /** Walking onto a cell that holds a monster record (and is not the goal):
      the cell now shows the walker, not 'M', and the automatic attack hits the
      first monster there. If it survives, its record stays with 20 less
      health, hidden under the walker; if it dies, exactly its record is
      deleted and the cell the walker stands on is blanked. Either way the
      vacated cell is blank and no other cell changes. */
  lemma WalkIntoMonster(s: Game, i: nat, dir: char, k: nat)
    requires WellFormed(s) && i < |s.players| && IsDirection(dir)
    requires CanMove(s, i, dir)
    requires Target(s.players[i].position, dir).value != s.goal
    requires FirstMonsterAt(s.monsters, Target(s.players[i].position, dir).value) == Some(k)
    ensures var t := Step(s, i, dir);
      var to := Target(s.players[i].position, dir).value;
      && t.outcome == Walked
      && t.game.players[i].position == to
      && InBounds(t.game.maze, to)
      && At(t.game.maze, s.players[i].position) == BLANK
      && (forall q | InBounds(s.maze, q) && q != to && q != s.players[i].position ::
            At(t.game.maze, q) == At(s.maze, q))
      && (s.monsters[k].health > ATTACK_DAMAGE ==>
            && t.game.monsters == s.monsters[k := s.monsters[k].(health := s.monsters[k].health - ATTACK_DAMAGE)]
            && At(t.game.maze, to) == s.players[i].symbol)
      && (s.monsters[k].health <= ATTACK_DAMAGE ==>
            && t.game.monsters == s.monsters[..k] + s.monsters[k + 1..]
            && At(t.game.maze, to) == BLANK)
  {
    var m := MovePlayer(s, i, dir, []);
    var s1 := m.game;
    assert s1.monsters == s.monsters;
    assert s1.players[i].position == Target(s.players[i].position, dir).value;
    if s.monsters[k].health > ATTACK_DAMAGE {
      WoundedStaysFirst(s1, i, k);
    } else {
      KillingBlow(s1, i, k);
    }
  }

  /** The acting players of a round, from player i on, each play one command
      in order; the level-complete test only runs after the whole round. */
  function RoundFrom(s: Game, cmds: seq<char>, i: nat): (r: Game)
    requires WellFormed(s) && |cmds| == |s.players| && i <= |s.players|
    decreases |s.players| - i
    ensures WellFormed(r) && r.goal == s.goal && r.level == s.level
    ensures |r.players| == |s.players|
    ensures RosterKept(s, r)
    ensures forall k | 0 <= k < i :: r.players[k] == s.players[k]
  {
    if i == |s.players| then s
    else
      var t := Step(s, i, cmds[i]);
      StepFrame(s, i, cmds[i]);
      RoundFrom(t.game, cmds, i + 1)
  }

  /** Every player keeps its symbol and sword flag; health never drops and
      never passes 100. Positions are free to change. */
  ghost predicate RosterKept(s: Game, r: Game) {
    && |r.players| == |s.players|
    && forall k | 0 <= k < |s.players| ::
         && r.players[k].symbol == s.players[k].symbol
         && r.players[k].hasSword == s.players[k].hasSword
         && s.players[k].health <= r.players[k].health
         && (s.players[k].health <= MAX_HEALTH ==> r.players[k].health <= MAX_HEALTH)
  }

  /** The for loop over the players in play(). */
  function Round(s: Game, cmds: seq<char>): Game
    requires WellFormed(s) && |cmds| == |s.players|
  {
    RoundFrom(s, cmds, 0)
  }

  /** A round is player 1's command followed by player 2's, each on the game
      the previous one left. */
  lemma RoundInOrder(s: Game, cmds: seq<char>)
    requires WellFormed(s) && |cmds| == |s.players|
    ensures Round(s, cmds) == Step(Step(s, 0, cmds[0]).game, 1, cmds[1]).game
  {
    var t0 := Step(s, 0, cmds[0]);
    var t1 := Step(t0.game, 1, cmds[1]);
    assert Round(s, cmds) == RoundFrom(t0.game, cmds, 1);
    assert RoundFrom(t0.game, cmds, 1) == RoundFrom(t1.game, cmds, 2);
  }

  /** The `break` on reaching the goal only leaves the switch: the second
      player still takes its turn, but cannot undo the first player's arrival,
      so the level is complete when the round ends. */
  lemma FirstFinisherCompletesRound(s: Game, cmds: seq<char>)
    requires WellFormed(s) && |cmds| == |s.players|
    requires Step(s, 0, cmds[0]).outcome == ReachedGoal
    ensures IsLevelComplete(Round(s, cmds).players, Round(s, cmds).goal)
  {
    var t := Step(s, 0, cmds[0]);
    StepOutcomes(s, 0, cmds[0]);
    var r := Round(s, cmds);
    assert r == RoundFrom(t.game, cmds, 1);
    assert r.players[0] == t.game.players[0];
    assert r.players[0].position == r.goal;
  }

  predicate RoundsFit(rounds: seq<seq<char>>) {
    forall n | 0 <= n < |rounds| :: |rounds[n]| == MAX_PLAYERS
  }

  /** The inner while loop of play(): rounds until some player is on the goal,
      then the level counter goes up. `None` when the supplied rounds run out
      first. */
  function RunLevel(s: Game, rounds: seq<seq<char>>): (r: Option<Game>)
    requires WellFormed(s) && RoundsFit(rounds)
    decreases |rounds|
    ensures r.Some? ==>
      && r.value.level == s.level + 1 && r.value.goal == s.goal
      && IsLevelComplete(r.value.players, r.value.goal)
      && WellFormed(r.value) && RosterKept(s, r.value)
    ensures r.None? ==> !IsLevelComplete(s.players, s.goal)
  {
    if IsLevelComplete(s.players, s.goal) then Some(s.(level := s.level + 1))
    else if |rounds| == 0 then None
    else RunLevel(Round(s, rounds[0]), rounds[1..])
  }

  /** The game after every round of `rs` is played in turn, with no goal test
      in between. */
  function AfterRounds(s: Game, rs: seq<seq<char>>): (r: Game)
    requires WellFormed(s) && RoundsFit(rs)
    decreases |rs|
    ensures WellFormed(r) && r.goal == s.goal && r.level == s.level
  {
    if |rs| == 0 then s else AfterRounds(Round(s, rs[0]), rs[1..])
  }

  /** Some player is on the goal once the first `n` rounds are played. */
  ghost predicate CompleteAfter(s: Game, rounds: seq<seq<char>>, n: nat)
    requires WellFormed(s) && RoundsFit(rounds) && n <= |rounds|
  {
    var g := AfterRounds(s, rounds[..n]);
    IsLevelComplete(g.players, g.goal)
  }

  /** Playing the first `n` rounds is playing the first round and then the
      next `n - 1`. */
  lemma AfterRoundsCons(s: Game, rounds: seq<seq<char>>, n: nat)
    requires WellFormed(s) && RoundsFit(rounds) && 1 <= n <= |rounds|
    ensures AfterRounds(s, rounds[..n]) == AfterRounds(Round(s, rounds[0]), rounds[1..][..n - 1])
  {
    assert rounds[..n][0] == rounds[0];
    assert rounds[..n][1..] == rounds[1..][..n - 1];
  }

  /** The while loop of a level plays the rounds in order and fails exactly
      when no prefix of the rounds, the empty one included, leaves some player
      on the goal. */
  lemma {:induction false} RunLevelFails(s: Game, rounds: seq<seq<char>>)
    requires WellFormed(s) && RoundsFit(rounds)
    decreases |rounds|
    ensures RunLevel(s, rounds).None? <==>
      forall n | 0 <= n <= |rounds| :: !CompleteAfter(s, rounds, n)
  {
    assert rounds[..0] == [];
    assert AfterRounds(s, rounds[..0]) == s;
    if IsLevelComplete(s.players, s.goal) {
      assert CompleteAfter(s, rounds, 0);
    } else if |rounds| > 0 {
      var s1 := Round(s, rounds[0]);
      var tail := rounds[1..];
      RunLevelFails(s1, tail);
      assert RunLevel(s, rounds) == RunLevel(s1, tail);
      if RunLevel(s, rounds).None? {
        forall n | 1 <= n <= |rounds|
          ensures !CompleteAfter(s, rounds, n)
        {
          AfterRoundsCons(s, rounds, n);
          assert !CompleteAfter(s1, tail, n - 1);
        }
      } else {
        var n :| 0 <= n <= |tail| && CompleteAfter(s1, tail, n);
        AfterRoundsCons(s, rounds, n + 1);
        assert CompleteAfter(s, rounds, n + 1);
      }
    }
  }

  /** `n` rounds is the shortest prefix of the rounds after which some player
      is on the goal. */
  ghost predicate FirstCompleteAt(s: Game, rounds: seq<seq<char>>, n: nat)
    requires WellFormed(s) && RoundsFit(rounds)
  {
    && n <= |rounds|
    && CompleteAfter(s, rounds, n)
    && forall m | 0 <= m < n :: !CompleteAfter(s, rounds, m)
  }

  /** Some player is on the goal after the first `n` rounds iff some player
      is on the goal after the next `n - 1` rounds that follow the first. */
  lemma CompleteAfterShift(s: Game, rounds: seq<seq<char>>, n: nat)
    requires WellFormed(s) && RoundsFit(rounds) && 1 <= n <= |rounds|
    ensures CompleteAfter(s, rounds, n) == CompleteAfter(Round(s, rounds[0]), rounds[1..], n - 1)
  {
    AfterRoundsCons(s, rounds, n);
  }

  /** When the shortest completing prefix is not empty, it is one round
      longer than the shortest completing prefix after the first round. */
  lemma FirstCompleteShift(s: Game, rounds: seq<seq<char>>, n: nat)
    requires WellFormed(s) && RoundsFit(rounds) && 1 <= n
    requires FirstCompleteAt(s, rounds, n)
    ensures !IsLevelComplete(s.players, s.goal)
    ensures FirstCompleteAt(Round(s, rounds[0]), rounds[1..], n - 1)
  {
    assert rounds[..0] == [];
    assert !CompleteAfter(s, rounds, 0);
    var s1 := Round(s, rounds[0]);
    var tail := rounds[1..];
    CompleteAfterShift(s, rounds, n);
    forall m | 0 <= m < n - 1
      ensures !CompleteAfter(s1, tail, m)
    {
      CompleteAfterShift(s, rounds, m + 1);
    }
  }

  /** When the first prefix of the rounds that leaves some player on the goal
      has `n` rounds, the level ends with the game after those `n` rounds and
      the level counter one higher: no round after it is played. */
  lemma {:induction false} RunLevelStopsFirst(s: Game, rounds: seq<seq<char>>, n: nat)
    requires WellFormed(s) && RoundsFit(rounds)
    requires FirstCompleteAt(s, rounds, n)
    decreases n
    ensures RunLevel(s, rounds) == Some(AfterRounds(s, rounds[..n]).(level := s.level + 1))
  {
    if n == 0 {
      assert rounds[..0] == [];
    } else {
      FirstCompleteShift(s, rounds, n);
      AfterRoundsCons(s, rounds, n);
      var s1 := Round(s, rounds[0]);
      assert RunLevel(s, rounds) == RunLevel(s1, rounds[1..]);
      RunLevelStopsFirst(s1, rounds[1..], n - 1);
    }
  }

  /** The side of the level's grid: 10, 11 and 12 for levels 1 to 3. */
  function MazeSize(level: int): (n: nat)
    requires level >= 1
    ensures 1 <= level <= MAX_LEVELS ==> MAZE_MIN_SIZE <= n <= MAZE_MIN_SIZE + MAX_LEVELS - 1
  {
    MAZE_MIN_SIZE + level - 1
  }

  /** Entering a level: generateMaze(MAZE_MIN_SIZE + level - 1) on the
      current players and monster list. */
  function StartLevel(s: Game, draws: seq<nat>, coin: Pos -> bool): (r: Option<Game>)
    requires ValidRoster(s.players) && s.level >= 1
    ensures r.Some? ==>
      && WellFormed(r.value)
      && |r.value.maze| == MazeSize(s.level) && r.value.level == s.level
      && Repositioned(s.players, r.value.players)
  {
    match GenerateMaze(MazeSize(s.level), s.players, s.monsters, draws, coin)
    case None => None
    case Some(v) =>
      RepositionedKeepsRoster(s.players, v.players);
      Some(Game(v.maze, v.players, v.monsters, v.goal, s.level))
  }

  /** A level never starts complete, and the monster list of the previous
      levels survives as a prefix of the new one. */
  lemma StartLevelFresh(s: Game, draws: seq<nat>, coin: Pos -> bool)
    requires ValidRoster(s.players) && s.level >= 1
    ensures var o := StartLevel(s, draws, coin);
      o.Some? ==> var r := o.value;
      && !IsLevelComplete(r.players, r.goal)
      && |r.monsters| >= |s.monsters| && r.monsters[..|s.monsters|] == s.monsters
  {
    if StartLevel(s, draws, coin).Some? {
      var r := StartLevel(s, draws, coin).value;
      var v := GenerateMaze(MazeSize(s.level), s.players, s.monsters, draws, coin).value;
      assert r.players == v.players && r.goal == v.goal && r.monsters == v.monsters;
      GeneratedLayout(MazeSize(s.level), s.players, s.monsters, draws, coin);
      GeneratedMonsters(MazeSize(s.level), s.players, s.monsters, draws, coin);
      assert forall k | 0 <= k < |r.players| :: r.players[k].position != r.goal;
    }
  }

  lemma RosterKeptTransitive(a: Game, b: Game, c: Game)
    requires RosterKept(a, b) && RosterKept(b, c)
    ensures RosterKept(a, c)
  {
  }

  /** What the random source and the keyboard supply for one level. */
  datatype LevelInput = LevelInput(draws: seq<nat>, coin: Pos -> bool, rounds: seq<seq<char>>)

  /** One iteration of the outer while loop of play(): generate the level,
      run it to completion, advance the counter. */
  function PlayLevel(s: Game, input: LevelInput): (r: Option<Game>)
    requires ValidRoster(s.players) && s.level >= 1 && RoundsFit(input.rounds)
    ensures r.Some? ==> r.value.level == s.level + 1 && ValidRoster(r.value.players)
  {
    match StartLevel(s, input.draws, input.coin)
    case None => None
    case Some(g) => RunLevel(g, input.rounds)
  }

  /** A level changes the players' positions only, apart from healing. */
  lemma PlayLevelKeepsRoster(s: Game, input: LevelInput)
    requires ValidRoster(s.players) && s.level >= 1 && RoundsFit(input.rounds)
    ensures PlayLevel(s, input).Some? ==> RosterKept(s, PlayLevel(s, input).value)
  {
    if PlayLevel(s, input).Some? {
      var g := StartLevel(s, input.draws, input.coin).value;
      var r := PlayLevel(s, input).value;
      assert r == RunLevel(g, input.rounds).value;
      RepositionedRosterKept(s, g);
      RosterKeptTransitive(s, g, r);
    }
  }

  /** Moving the players keeps the roster. */
  lemma RepositionedRosterKept(s: Game, g: Game)
    requires Repositioned(s.players, g.players)
    ensures RosterKept(s, g)
  {
    forall k | 0 <= k < |s.players|
      ensures g.players[k].symbol == s.players[k].symbol
      ensures g.players[k].hasSword == s.players[k].hasSword
      ensures g.players[k].health == s.players[k].health
    {
      assert g.players[k] == s.players[k].(position := g.players[k].position);
    }
  }

  /** The outer while loop of play(): levels until the counter passes
      MAX_LEVELS. `None` when the inputs run out first. */
  function Play(s: Game, inputs: seq<LevelInput>): (r: Option<Game>)
    requires ValidRoster(s.players) && s.level >= 1
    requires forall n | 0 <= n < |inputs| :: RoundsFit(inputs[n].rounds)
    decreases |inputs|
    ensures r.Some? ==> r.value.level > MAX_LEVELS
    ensures r.Some? && s.level <= MAX_LEVELS ==> r.value.level == MAX_LEVELS + 1
  {
    if s.level > MAX_LEVELS then Some(s)
    else if |inputs| == 0 then None
    else
      match PlayLevel(s, inputs[0])
      case None => None
      case Some(done) => Play(done, inputs[1..])
  }

  /** A whole game changes the players' positions only, apart from healing. */
  lemma {:induction false} PlayKeepsRoster(s: Game, inputs: seq<LevelInput>)
    requires ValidRoster(s.players) && s.level >= 1
    requires forall n | 0 <= n < |inputs| :: RoundsFit(inputs[n].rounds)
    ensures Play(s, inputs).Some? ==> RosterKept(s, Play(s, inputs).value)
    decreases |inputs|
  {
    if Play(s, inputs).Some? && s.level <= MAX_LEVELS {
      var done := PlayLevel(s, inputs[0]).value;
      PlayLevelKeepsRoster(s, inputs[0]);
      PlayKeepsRoster(done, inputs[1..]);
      RosterKeptTransitive(s, done, Play(s, inputs).value);
    }
  }

  /** From the constructor's state no player ever gets a sword or loses
      health: the 'k' command can never attack, and nothing in the game
      damages a player. */
  lemma NoSwordNoDamage(inputs: seq<LevelInput>)
    requires forall n | 0 <= n < |inputs| :: RoundsFit(inputs[n].rounds)
    ensures var o := Play(InitialGame(), inputs);
      o.Some? ==> var r := o.value;
      forall k | 0 <= k < |r.players| :: !r.players[k].hasSword && r.players[k].health == MAX_HEALTH
  {
    var s := InitialGame();
    PlayKeepsRoster(s, inputs);
    if Play(s, inputs).Some? {
      var r := Play(s, inputs).value;
      assert RosterKept(s, r);
      forall k | 0 <= k < |r.players|
        ensures !r.players[k].hasSword && r.players[k].health == MAX_HEALTH
      {
        assert s.players[k].health == MAX_HEALTH;
      }
    }
  }
}

=== FILE: wrappers.dfy ===
/** The optional value used wherever the game may have no answer: a missing
    monster, or a stream of random draws that ran out before a loop ended. */
module Wrappers {

  datatype Option<+T> = None | Some(value: T)
}
